=== FILE: README.md ===
# Benchmark orchestration for the OpenMP kernels, in Dafny

This project models the Python drivers that benchmark two OpenMP kernels:
`NumericalIntegrationTester` (rectangle and trapezoidal rules for the integral
of sin over [0, pi], each with an OpenMP and a sequential method) and
`MatrixMultiplicationTester` (blocked, standard and sequential matrix
multiplication). For each configuration, a driver does the following:

- It launches the kernel executable a number of times with an argument vector.
- It parses the comma-separated result line that the kernel prints.
- It drops every failed trial and averages the rest.
- It builds the `results` list: one row per method and thread count, with
  speedup = sequential time / parallel time and efficiency = speedup / threads.

Modules:

- `Wrappers`: `Option` and `Result`.
- `Text`: the parts of Python's `str` that the drivers use: `strip()`,
  `split(',')`, `in` and `str()` of an integer.
- `Stats`: `np.mean` as an exact mean over reals.
- `Harness`: the engine both drivers share:
  - the outcome of one child process and the result-line parser
  - dropping failed trials
  - the speedup and efficiency arithmetic
  - the sweep of one parallel method over the thread counts
  - the output order
- `Integration`: `NumericalIntegrationTester`. This covers `run_single_test`
  (including the 1% accuracy warning) and `run_all_tests`, with one sequential
  baseline per rule. The driver skips a parallel method when its baseline is
  missing.
- `Matrix`: `MatrixMultiplicationTester`. This covers the constructor's
  divisibility check, `run_single_test` and `run_all_tests`. One sequential
  baseline is shared by both parallel methods, and the run ends early when
  that baseline is missing.

The outside world is a parameter, `Harness.Env`. It has three parts:

- `run` maps an invocation to a process outcome. An invocation is the argument
  vector plus the index of the repetition within its configuration. The
  outcome is one of: completed with an exit code and stdout, timed out, or
  failed to launch.
- `parseNum` stands for Python's `float()`.
- `showReal` stands for `str()` of a bound. The bounds are floats, except the
  default lower bound `x1=0`, which is the int `0` and prints as "0". The
  model holds the bounds as reals and leaves this to `showReal`.

Each driver's `RunAllTests` combines two things into one `Report`:

- the records, produced by an environment-free `Results` function of the
  per-configuration aggregates;
- the ordered list of child processes started, from `Calls`.

The theorems about order, baselines and scheduling are stated over these
pieces.

## Model

| member | source | states |
|---|---|---|
| `Text.Strip` | integration_performance_test.py:68 | The stripped line has no whitespace at either end. |
| `Text.StripSlice` | performance_test.py:65 | What `strip()` keeps is one contiguous piece of the line, and everything it drops on either side is whitespace. |
| `Text.StripFramed` | integration_performance_test.py:68 | Stripping whitespace placed around a trimmed core gives back exactly that core. |
| `Text.StripIdempotent` | performance_test.py:65 | Stripping an already stripped line changes nothing. |
| `Text.JoinSplit` | integration_performance_test.py:69 | Splitting on ',' loses nothing: joining the pieces with ',' rebuilds the line. |
| `Text.Split` | integration_performance_test.py:69 | `split(',')` gives at least one piece, and no piece contains ','. |
| `Text.SplitCount` | performance_test.py:66 | `split(',')` gives exactly one piece more than the line has commas. |
| `Text.SplitJoin` | performance_test.py:66 | Splitting a ','-join of comma-free fields returns those fields, count and contents. |
| `Text.IntToString` | integration_performance_test.py:56 | `str()` of an integer is non-empty and made of digits, with a '-' only in front and exactly when the integer is negative. It has no leading zero: "0" is the only string that starts with '0', and a '-' is never followed by '0'. |
| `Text.IntToStringRoundTrip` | integration_performance_test.py:56 | `str()` of any integer (method id, thread count, matrix size) is read back as the same integer. |
| `Stats.Mean` | integration_performance_test.py:123 | The mean of a non-empty sample lies between its smallest and its largest member. |
| `Stats.MeanBounds` | integration_performance_test.py:123-124 | The mean of a non-empty sample lies between any lower and upper bound of its members. |
| `Stats.MeanOfConstant` | performance_test.py:106 | A sample of identical values averages to that value. |
| `Harness.Fields` | integration_performance_test.py:58-90 | A timeout, a launch error or a non-zero exit drops the trial with that reason. On exit status 0, the fields are kept exactly when the stripped stdout has one comma fewer than the expected field count; otherwise the trial is dropped with the actual count. Kept fields are comma-free and rejoin to the stripped stdout. |
| `Harness.LineFields` | performance_test.py:65-72 | A stripped line is accepted exactly when its comma count plus one is the expected field count. It is then split into comma-free fields that rejoin to the line; otherwise the failure carries the actual field count. |
| `Harness.FieldsOfKernelLine` | performance_test.py:64-72 | For the kernel's output (a blank line, then the fields joined by ','), the parser returns exactly those fields when their number is right, and a field-count failure otherwise. |
| `Harness.Keep` | integration_performance_test.py:116-120 | The kept measurements are no more than the trials, are empty exactly when every trial failed, and each comes from a successful trial. |
| `Harness.DroppedTrialIsInvisible` | integration_performance_test.py:116-120 | A failed trial leaves the surviving sample unchanged, as if it had never run. |
| `Harness.KeepAllSome` | performance_test.py:99-103 | When every trial succeeds, every measurement is kept, in order. |
| `Harness.Divide` | integration_performance_test.py:169 | A non-zero divisor gives a finite quotient q with q * den == num. A zero divisor gives a non-finite value rather than an error. |
| `Harness.Efficiency` | integration_performance_test.py:170 | Efficiency is finite exactly when speedup is, and then efficiency * threads == speedup. |
| `Harness.ParallelRecord` | integration_performance_test.py:166-179 | A parallel row keeps name, threads, mean time and mean area. Its speedup times its time is the baseline, and its efficiency times its thread count is its speedup. |
| `Harness.Sweep` | performance_test.py:123-146 | Every row of a sweep belongs to one of the swept thread counts whose configuration produced an aggregate, and is the parallel row of that aggregate against the baseline. |
| `Harness.SweepComplete` | performance_test.py:131-142 | Every swept thread count with at least one successful trial has a row. |
| `Harness.SweepFacts` | integration_performance_test.py:156-183 | Over strictly ascending thread counts, a sweep has exactly one row per thread count with at least one successful trial: every such count has a row, no two rows share a thread count, and each row is measured against the baseline. |
| `Harness.SweepAscending` | integration_performance_test.py:156 | Over ascending thread counts the rows come out in strictly ascending thread order, gaps included. |
| `Harness.SweepCallsFrom` | performance_test.py:123-127 | Every child process a sweep starts runs a swept configuration, with a repetition index below the run count. |
| `Harness.SweepCallsCover` | performance_test.py:123-127 | Conversely, every swept configuration is started once for each repetition index below the run count, so no thread count is skipped or short of runs. |
| `Harness.SweepOrdered` | integration_performance_test.py:156-179 | A sweep is ordered by method and then by threads. |
| `Harness.SweepExample` | integration_performance_test.py:166-183 | Worked example: a baseline of 1 s with means 1, 0.52 and 0.3 s gives speedups 1, 25/13 and 10/3 and efficiencies 1, 25/26 and 5/6. A thread count whose trials all failed has no row. |
| `Integration.ArgvCarriesConfiguration` | integration_performance_test.py:53-56 | The command has six words: the executable, the three bounds, then the method id and a thread count that read back exactly. The thread count is 1 for methods 3 and 4. |
| `Integration.WarnsIff` | integration_performance_test.py:76-77 | In exact arithmetic, the accuracy warning fires exactly when the area lies outside [1.98, 2.02]. |
| `Integration.WarnBoundary` | integration_performance_test.py:39-40 | In exact arithmetic, an error of exactly 1% does not warn; an error just above 1% does. |
| `Integration.RunSingleTest` | integration_performance_test.py:42-90 | Failure paths: timeout, launch error, non-zero exit. Success path: exit 0, four fields, time and area converted from fields 3 and 4, warning flag set exactly for a large error. A trial is measured whenever the line has four fields that both convert. |
| `Integration.SequentialIgnoresThreads` | integration_performance_test.py:53-54 | A sequential method's command and trial do not depend on the thread count requested. |
| `Integration.TrialOfKernelLine` | integration_performance_test.py:67-80 | For the kernel's four-field line, the trial is measured exactly when time and area both convert, and then carries those numbers. |
| `Integration.WrongShapeDropped` | integration_performance_test.py:81-83 | A kernel line with any other number of fields drops the trial. |
| `Integration.Successes` | integration_performance_test.py:114-120 | The kept samples are empty exactly when every trial was dropped. |
| `Integration.DroppedTrialIgnored` | integration_performance_test.py:157-164 | Inserting a dropped trial anywhere leaves the kept (time, area) samples unchanged. |
| `Integration.Aggregated` | integration_performance_test.py:122-124 | A configuration has an aggregate exactly when at least one trial was measured, and the aggregate then carries an area. |
| `Integration.SummaryIgnoresDropped` | integration_performance_test.py:160-164 | Inserting a dropped trial anywhere leaves the aggregate unchanged. |
| `Integration.SummaryOfMeasured` | integration_performance_test.py:166-168 | With no trial dropped, the aggregate is the mean of the trial times and the mean of the trial areas, in trial order. |
| `Integration.SummaryWithinObserved` | integration_performance_test.py:122-124 | Over any list of trials, the mean time and mean area lie within any bounds that hold for every measured trial. |
| `Integration.AggregateWithinObserved` | integration_performance_test.py:166-168 | Mean time and mean area lie within any bounds that hold for every measured trial. |
| `Integration.ScanSequentialRows` | integration_performance_test.py:137-144 | The substring scan over the sequential rows recovers the rectangle mean and the trapezoidal mean, each absent exactly when its method failed. |
| `Integration.ScanRectangleLast` | integration_performance_test.py:138-142 | The rectangle baseline is the time of the last row whose name contains "Rectangle (Sequential)", and stays unset when no row does. |
| `Integration.ScanTrapezoidalLast` | integration_performance_test.py:139-144 | The trapezoidal baseline is the time of the last row that contains "Trapezoidal (Sequential)" but not "Rectangle (Sequential)" (the `elif`), and stays unset when no row does. |
| `Integration.ResultsShape` | integration_performance_test.py:146-154 | After the scan, method 1 is swept against the sequential rectangle mean and method 2 against the sequential trapezoidal mean. |
| `Integration.ResultsMembers` | integration_performance_test.py:107-183 | `results` holds exactly the sequential rows that have a mean and the rows of each parallel sweep run against its rule's baseline; nothing else is ever appended. |
| `Integration.ResultsOrdered` | integration_performance_test.py:107-183 | `results` has at most 12 rows. They are ordered: sequential rectangle, sequential trapezoidal, then method 1 and method 2, each by ascending threads. |
| `Integration.SequentialRowsAreUnit` | integration_performance_test.py:125-132 | Each sequential row has one thread, speedup 1 and efficiency 1, and that rule's mean time. |
| `Integration.ParallelRowsUseOwnBaseline` | integration_performance_test.py:150-179 | Every method-1 row is measured against the rectangle baseline and every method-2 row against the trapezoidal one. |
| `Integration.RowPresentIff` | integration_performance_test.py:122-183 | A sequential row exists exactly when one of its trials succeeded. A parallel row exists exactly when its rule's baseline exists and one of its own trials succeeded. |
| `Integration.CallsCount` | integration_performance_test.py:110-161 | The run starts 2n child processes, plus 5n more for each rule that has a baseline, where n is the run count. The first n are sequential rectangle and the next n sequential trapezoidal. |
| `Integration.CallsScheduled` | integration_performance_test.py:110-161 | Every child process runs a sequential method on one thread, or a parallel method at a swept thread count once that rule has a baseline. Conversely, each such configuration is started once for every repetition index below the run count. |
| `Integration.RunAllTestsReport` | integration_performance_test.py:92-183 | A whole run gives at most 12 rows, in output order. It starts 2n sequential processes first, plus 5n per rule with a baseline. Each parallel row's time is its own configuration's mean, measured against its rule's sequential mean. Every row has one of the four method names. The processes started are exactly the scheduled configurations, each at every repetition index below n. |
| `Matrix.PyMod` | performance_test.py:36 | Python's `%` is in the divisor's range, is zero exactly when the Euclidean remainder is, and completes `divmod`: a == b * (a // b) + a % b with floored `//`. |
| `Matrix.NewTester` | performance_test.py:36-37 | The constructor fails for block size 0, succeeds exactly when the matrix size is a multiple of the block size, and otherwise fails with the not-divisible error. |
| `Matrix.DefaultsAccepted` | performance_test.py:16-37 | 512 with block size 64 is accepted; 500 with block size 64 is refused. |
| `Matrix.ArgvCarriesConfiguration` | performance_test.py:50-53 | The command has five words. Matrix size, block size, method id and thread count read back exactly; the thread count is 1 for method 3. |
| `Matrix.RunSingleTest` | performance_test.py:39-79 | Failure paths: timeout, launch error, non-zero exit. Success path: exit 0, three fields, time converted from field 3. A trial is timed whenever the line has three fields and the time converts. |
| `Matrix.SequentialIgnoresThreads` | performance_test.py:50-51 | The sequential method's command and trial do not depend on the thread count requested. |
| `Matrix.TrialOfKernelLine` | performance_test.py:64-69 | For the kernel's three-field line, the trial is timed exactly when the time converts, and carries that time. |
| `Matrix.WrongShapeDropped` | performance_test.py:70-72 | A kernel line with any other number of fields, such as the integration kernel's four, drops the trial. |
| `Matrix.Successes` | performance_test.py:126-129 | The kept times come from timed trials and are empty exactly when every trial was dropped. |
| `Matrix.Aggregated` | performance_test.py:131-132 | A configuration has an aggregate exactly when at least one trial was timed. The aggregate has no area. |
| `Matrix.SummaryIgnoresDropped` | performance_test.py:126-129 | Inserting a dropped trial anywhere leaves the aggregate unchanged. |
| `Matrix.SummaryOfTimed` | performance_test.py:131-132 | With no trial dropped, the aggregate is the mean of the trial times, in trial order. |
| `Matrix.SummaryWithinObserved` | performance_test.py:131-132 | Over any list of trials, the mean time lies within any bounds that hold for every timed trial. |
| `Matrix.AggregateWithinObserved` | performance_test.py:105-106 | The mean time lies within any bounds that hold for every timed trial. |
| `Matrix.EarlyAbort` | performance_test.py:115-117 | Without a successful sequential trial the run ends with no rows, having started only the sequential trials. |
| `Matrix.ResultsMembers` | performance_test.py:95-146 | `results` holds exactly the sequential row and the rows of the Blocked and Standard sweeps, and nothing at all without a sequential mean. |
| `Matrix.ResultsOrdered` | performance_test.py:95-146 | `results` has at most 11 rows, ordered Sequential, then Blocked, then Standard, each by ascending threads, and no row has any other method name. |
| `Matrix.SequentialRowIsUnit` | performance_test.py:107-113 | The sequential row has one thread, speedup 1 and efficiency 1, and the sequential mean time. |
| `Matrix.ParallelRowsShareBaseline` | performance_test.py:131-142 | Blocked and Standard rows are all measured against the same sequential mean. |
| `Matrix.RowPresentIff` | performance_test.py:105-146 | The sequential row exists exactly when a sequential trial succeeded. A parallel row exists exactly when that happened and one of its own trials succeeded. |
| `Matrix.CallsCount` | performance_test.py:99-127 | The run starts n sequential processes first, where n is the run count, then 10n more only when the sequential mean exists. |
| `Matrix.CallsScheduled` | performance_test.py:99-127 | Every child process runs the sequential method on one thread, or a parallel method at a swept thread count after a sequential mean was found. Conversely, each such configuration is started once for every repetition index below the run count. |
| `Matrix.RunAllTestsReport` | performance_test.py:81-146 | A whole run gives at most 11 rows, in output order, each named Sequential, Blocked or Standard. It starts n sequential processes first, and 10n more only when the sequential mean exists. Each parallel row's time is its own configuration's mean, measured against the sequential mean. The processes started are exactly the scheduled configurations, each at every repetition index below n. |

## Left out

- Process execution is the `Env.run` oracle. `subprocess.run`, the capture of stderr and the 30 s and 60 s timeouts are not modelled; a timeout appears only as the `TimedOut` outcome.
- Python's `float()` and `str()` of a float are the abstract `Env.parseNum` and `Env.showReal`. Decimal float syntax and formatting are not modelled.
- Harness.Divide: IEEE `inf` and `nan` from numpy float64 division by zero are merged into one `NonFinite` value. Rounding of float64 arithmetic is not modelled; times, means, speedups and efficiencies are exact reals. `float()` also accepts "nan" and "inf" as a time; the program appends such a time like any other, and it carries into the mean and every speedup built on it. `Env.parseNum` yields only reals, so such times are not represented.
- Stats.Mean: `np.mean` is the exact sum divided by the count, without float rounding.
- Integration.WarnBoundary: the 1% edge holds in exact arithmetic only. In float64, `abs(2.02 - 2.0) / 2.0` and `abs(1.98 - 2.0) / 2.0` come out slightly above `0.01`, so the program also warns at the doubles 1.98 and 2.02.
- Integration.WarnsIff: the same float64 edge applies. Also, `float()` accepts "nan" and "inf", but `Env.parseNum` yields only reals. A nan area is kept and never warns, since `nan > 0.01` is false; this case is not represented.
- Integration.RunSingleTest: requires a method id from the `methods` table (1 to 4), the only ids the driver passes. With any other id, the table is looked up only when a message names the method. A run with exit 0, four fields that convert and an error within tolerance is therefore measured as usual. A non-zero exit, or a large-error warning, raises `KeyError` inside the `try`, and the generic handler turns that into a dropped trial. On the timeout path the `KeyError` is raised in the handler itself and escapes. These out-of-table cases are not modelled.
- Matrix.RunSingleTest: requires a method id from the `methods` table (1 to 3). With any other id, a run with exit 0 is parsed and timed as usual, since no message is printed. A non-zero exit becomes a dropped trial through the generic handler. On a timeout the `KeyError` escapes. These cases are not modelled.
- A failure to launch the kernel drops only that trial, because `except Exception` catches it (integration_performance_test.py:88-90, performance_test.py:77-79).
- Output with several lines is not rejected on its own. The code only strips it and splits it on ',' (integration_performance_test.py:68-69, performance_test.py:65-66), so such output fails only if it does not give exactly the expected number of fields.
- Fields 1 and 2 of a result line (method and threads) are not checked, as in the code.
- Matrix: a missing sequential baseline ends the whole run with no rows, because of the `return` at performance_test.py:115-117 (`Matrix.EarlyAbort`).
- Integration: a missing baseline skips only the parallel method that needs it, because of the `continue` at integration_performance_test.py:152-154 (`Integration.RowPresentIff`).
- Matrix.NewTester: block size 0 is the `ZeroBlockSize` error. In Python it surfaces as `ZeroDivisionError`, not the `ValueError` of the divisibility check.
- Printing, `save_results` (CSV), `plot_speedup`, `plot_efficiency` and `plot_accuracy_comparison` (matplotlib) and the `main` entry points are left out, because they only present results.
- The C++ kernels are not part of this model. Only the shape of their batch output is used: a blank line, then `method,threads,time[,area]`.

=== FILE: harness.dfy ===
/** The engine both testers share: the outcome of one child process, the
    comma-separated result line, dropping failed trials, and turning
    averaged samples into result records with speedup and efficiency. */
module Harness {
  import opened Wrappers
  import opened Text
  import opened Stats

  /** One call of the benchmarked executable: its argument vector and the
      index of the repetition within its configuration (`range(runs)`). */
  datatype Invocation = Invocation(argv: seq<string>, run: nat)

  /** What `subprocess.run` reports: the process finished with an exit code
      and its standard output, it exceeded the timeout and was killed, or
      launching it raised (missing or unexecutable file). */
  datatype ProcessOutcome =
    | Completed(exitCode: int, stdout: string)
    | TimedOut
    | LaunchFailed

  /** Everything outside the harness logic: the operating system running the
      kernel, Python's `float()` and Python's `str()` of a float. */
  datatype Env = Env(
    run: Invocation -> ProcessOutcome,
    parseNum: string -> Option<real>,
    showReal: real -> string)

  /** Why a trial was dropped; the testers themselves only distinguish
      "measured" from "dropped". */
  datatype Failure =
    | NonZeroExit(code: int)
    | WrongFieldCount(found: nat)
    | NotANumber
    | Timeout
    | LaunchError

  /** The line shape the kernels print in batch mode. */
  predicate WellFormedFields(fields: seq<string>)
  {
    && |fields| >= 1
    && (forall k :: 0 <= k < |fields| ==> ',' !in fields[k])
    && Trimmed(Join(fields, ','))
  }

  /** The part of `run_single_test` common to both testers: a non-zero exit
      status, a timeout or a launch error drops the trial; otherwise standard
      output is stripped and split on ',' and must give exactly `expected`
      fields. */
  function Fields(outcome: ProcessOutcome, expected: nat): (r: Result<seq<string>, Failure>)
    ensures outcome.TimedOut? ==> r == Failure(Timeout)
    ensures outcome.LaunchFailed? ==> r == Failure(LaunchError)
    ensures outcome.Completed? && outcome.exitCode != 0 ==> r == Failure(NonZeroExit(outcome.exitCode))
    ensures r.Success? ==>
      && outcome.Completed? && outcome.exitCode == 0
      && |r.value| == expected >= 1
      && (forall k :: 0 <= k < |r.value| ==> ',' !in r.value[k])
      && Join(r.value, ',') == Strip(outcome.stdout)
    ensures outcome.Completed? && outcome.exitCode == 0 ==>
      var commas := multiset(Strip(outcome.stdout))[','];
      if commas + 1 == expected then r.Success?
      else r == Failure(WrongFieldCount(commas + 1))
  {
    match outcome
    case TimedOut => Failure(Timeout)
    case LaunchFailed => Failure(LaunchError)
    case Completed(code, out) =>
      if code != 0 then Failure(NonZeroExit(code))
      else
        LineFields(Strip(out), expected)
  }

  /** Splitting the stripped output line on ',' and checking the count. */
  function LineFields(line: string, expected: nat): (r: Result<seq<string>, Failure>)
    ensures r.Success? ==>
      && |r.value| == expected >= 1
      && (forall k :: 0 <= k < |r.value| ==> ',' !in r.value[k])
      && Join(r.value, ',') == line
    ensures var commas := multiset(line)[','];
      if commas + 1 == expected then r.Success?
      else r == Failure(WrongFieldCount(commas + 1))
  {
    var parts := Split(line, ',');
    JoinSplit(line, ',');
    SplitCount(line, ',');
    if |parts| == expected then Success(parts) else Failure(WrongFieldCount(|parts|))
  }

  /** Round trip with the kernels' wire format: a successful run that prints
      a blank line, then the fields joined by ',' and a newline, yields
      exactly those fields when their number is the expected one, and a
      field-count failure otherwise. */
  lemma FieldsOfKernelLine(fields: seq<string>, expected: nat)
    requires WellFormedFields(fields)
    ensures Fields(Completed(0, "\n" + Join(fields, ',') + "\n"), expected)
         == (if |fields| == expected then Success(fields) else Failure(WrongFieldCount(|fields|)))
  {
    var line := Join(fields, ',');
    assert AllSpace("\n") by { assert IsSpace('\n'); }
    StripFramed("\n", line, "\n");
    SplitJoin(fields, ',');
  }

  /** Python's `range(runs)` length: a negative count runs nothing. */
  function RunCount(runs: int): (n: nat)
    ensures runs >= 0 ==> n == runs
    ensures runs < 0 ==> n == 0
  {
    if runs < 0 then 0 else runs
  }

  /** The child processes one configuration issues, in order. */
  function ConfigCalls(argv: seq<string>, runs: int): (calls: seq<Invocation>)
    ensures |calls| == RunCount(runs)
    ensures forall k :: 0 <= k < |calls| ==> calls[k] == Invocation(argv, k)
  {
    seq(RunCount(runs), k requires 0 <= k => Invocation(argv, k))
  }

  /** The values of the successful trials, in trial order: `times.append`
      guarded by `is not None`. */
  function Keep<M>(xs: seq<Option<M>>): (r: seq<M>)
    ensures |r| <= |xs|
    ensures r == [] <==> forall k :: 0 <= k < |xs| ==> xs[k].None?
    ensures forall k :: 0 <= k < |r| ==> Some(r[k]) in xs
  {
    if xs == [] then []
    else if xs[0].Some? then [xs[0].value] + Keep(xs[1..])
    else Keep(xs[1..])
  }

  lemma {:induction false} KeepAppend<M>(a: seq<Option<M>>, b: seq<Option<M>>)
    ensures Keep(a + b) == Keep(a) + Keep(b)
    decreases |a|
  {
    if a != [] {
      assert (a + b)[1..] == a[1..] + b;
      KeepAppend(a[1..], b);
    } else {
      assert a + b == b;
    }
  }

  /** A failed trial contributes nothing: the surviving sample is the same
      as if that trial had never been run. */
  lemma DroppedTrialIsInvisible<M>(before: seq<Option<M>>, after: seq<Option<M>>)
    ensures Keep(before + [None] + after) == Keep(before + after)
  {
    KeepAppend(before + [None], after);
    KeepAppend(before, [None]);
    KeepAppend(before, after);
  }

  /** When every trial succeeds nothing is dropped. */
  lemma {:induction false} KeepAllSome<M>(xs: seq<Option<M>>)
    requires forall k :: 0 <= k < |xs| ==> xs[k].Some?
    ensures |Keep(xs)| == |xs|
    ensures forall k :: 0 <= k < |xs| ==> Keep(xs)[k] == xs[k].value
    decreases |xs|
  {
    if xs != [] {
      KeepAllSome(xs[1..]);
    }
  }

  /** Where the pieces of a three-part concatenation sit. */
  lemma Layout<T>(a: seq<T>, b: seq<T>, c: seq<T>)
    ensures |a + b + c| == |a| + |b| + |c|
    ensures (a + b + c)[..|a|] == a
    ensures (a + b + c)[|a|..|a| + |b|] == b
  {
    assert a + b + c == a + (b + c);
    assert (a + (b + c))[|a|..] == b + c;
    assert (b + c)[..|b|] == b;
  }

  /** An IEEE quotient as far as the harness can tell: numpy float64
      division by zero gives inf or nan instead of raising. */
  datatype Ratio = Finite(value: real) | NonFinite

  function Divide(num: real, den: real): (q: Ratio)
    ensures den != 0.0 ==> q.Finite? && q.value * den == num
    ensures den == 0.0 ==> q.NonFinite?
  {
    if den == 0.0 then NonFinite else Finite(num / den)
  }

  /** `speedup / threads`, where a non-finite speedup stays non-finite. */
  function Efficiency(speedup: Ratio, threads: int): (e: Ratio)
    requires threads > 0
    ensures e.Finite? <==> speedup.Finite?
    ensures e.Finite? ==> e.value * threads as real == speedup.value
  {
    match speedup
    case Finite(s) => Finite(s / threads as real)
    case NonFinite => NonFinite
  }

  /** The mean time and (for kernels reporting one) the mean result value
      over the successful trials of one configuration. */
  datatype Aggregate = Aggregate(time: real, area: Option<real>)

  /** Mean time of a configuration, when it has one. */
  function TimeOf(a: Option<Aggregate>): Option<real> {
    if a.Some? then Some(a.value.time) else None
  }

  /** One row of the tester's `results` list. */
  datatype Record = Record(
    name: string,
    threads: int,
    time: real,
    area: Option<real>,
    speedup: Ratio,
    efficiency: Ratio)

  /** Baseline rows: one thread, speedup and efficiency 1 by definition. */
  function SequentialRecord(name: string, a: Aggregate): (r: Record)
    ensures r.name == name && r.time == a.time && r.area == a.area
    ensures r.threads == 1 && r.speedup == Finite(1.0) && r.efficiency == Finite(1.0)
  {
    Record(name, 1, a.time, a.area, Finite(1.0), Finite(1.0))
  }

  /** What every parallel row states about its baseline: speedup is
      baseline / time and efficiency is speedup / threads. */
  predicate MeasuredAgainst(r: Record, baseline: real)
  {
    && r.threads > 0
    && (r.time != 0.0 ==>
          && r.speedup.Finite? && r.speedup.value * r.time == baseline
          && r.efficiency.Finite? && r.efficiency.value * r.threads as real == r.speedup.value)
    && (r.time == 0.0 ==> r.speedup.NonFinite? && r.efficiency.NonFinite?)
  }

  function ParallelRecord(name: string, threads: int, a: Aggregate, baseline: real): (r: Record)
    requires threads > 0
    ensures r.name == name && r.threads == threads && r.time == a.time && r.area == a.area
    ensures MeasuredAgainst(r, baseline)
  {
    var speedup := Divide(baseline, a.time);
    Record(name, threads, a.time, a.area, speedup, Efficiency(speedup, threads))
  }

  /** What a whole `run_all_tests` leaves behind: the `results` list and,
      in order, every child process it started. */
  datatype Report = Report(records: seq<Record>, calls: seq<Invocation>)

  predicate AllPositive(threads: seq<int>)
  {
    forall k :: 0 <= k < |threads| ==> threads[k] > 0
  }

  predicate StrictlyIncreasing(threads: seq<int>)
  {
    forall i, j :: 0 <= i < j < |threads| ==> threads[i] < threads[j]
  }

  /** The inner `for threads in self.thread_counts` loop of one parallel
      method: a configuration whose trials all failed is skipped and the
      sweep goes on with the next thread count. */
  function Sweep(name: string, threads: seq<int>, baseline: real, agg: int -> Option<Aggregate>): (r: seq<Record>)
    requires AllPositive(threads)
    ensures |r| <= |threads|
    ensures forall k :: 0 <= k < |r| ==>
      && r[k].name == name
      && r[k].threads in threads
      && agg(r[k].threads).Some?
      && r[k] == ParallelRecord(name, r[k].threads, agg(r[k].threads).value, baseline)
  {
    if threads == [] then []
    else
      var head := match agg(threads[0])
        case None => []
        case Some(a) => [ParallelRecord(name, threads[0], a, baseline)];
      head + Sweep(name, threads[1..], baseline, agg)
  }

  /** Every thread count whose configuration produced an aggregate has its
      row in the sweep. */
  lemma {:induction false} SweepComplete(name: string, threads: seq<int>, baseline: real, agg: int -> Option<Aggregate>, t: int)
    requires AllPositive(threads)
    requires t in threads && agg(t).Some?
    ensures exists k :: 0 <= k < |Sweep(name, threads, baseline, agg)| && Sweep(name, threads, baseline, agg)[k].threads == t
    decreases |threads|
  {
    var r := Sweep(name, threads, baseline, agg);
    if threads[0] == t {
      assert r[0].threads == t;
    } else {
      assert t in threads[1..];
      SweepComplete(name, threads[1..], baseline, agg, t);
      var rest := Sweep(name, threads[1..], baseline, agg);
      var k :| 0 <= k < |rest| && rest[k].threads == t;
      assert r == r[..|r| - |rest|] + rest;
      assert r[|r| - |rest| + k] == rest[k];
    }
  }

  /** The sweep in membership terms: its rows are exactly one per thread
      count whose configuration produced an aggregate, each measured
      against the baseline. */
  lemma SweepFacts(name: string, threads: seq<int>, baseline: real, agg: int -> Option<Aggregate>)
    requires AllPositive(threads) && StrictlyIncreasing(threads)
    ensures var p := Sweep(name, threads, baseline, agg);
      forall i, j :: 0 <= i < j < |p| ==> p[i].threads != p[j].threads
    ensures var p := Sweep(name, threads, baseline, agg);
      && (forall r :: r in p ==>
            && r.name == name
            && r.threads in threads && agg(r.threads).Some?
            && r.time == agg(r.threads).value.time
            && MeasuredAgainst(r, baseline))
      && (forall th :: th in threads && agg(th).Some? ==>
            exists r :: r in p && r.name == name && r.threads == th)
  {
    var p := Sweep(name, threads, baseline, agg);
    SweepAscending(name, threads, baseline, agg);
    forall th | th in threads && agg(th).Some?
      ensures exists r :: r in p && r.name == name && r.threads == th
    {
      SweepComplete(name, threads, baseline, agg, th);
      var k :| 0 <= k < |p| && p[k].threads == th;
      assert p[k] in p;
    }
  }

  /** Rows listed by strictly ascending thread count. */
  predicate AscendingThreads(rs: seq<Record>)
  {
    forall i, j :: 0 <= i < j < |rs| ==> rs[i].threads < rs[j].threads
  }

  lemma TailIncreasing(threads: seq<int>)
    requires StrictlyIncreasing(threads) && threads != []
    ensures StrictlyIncreasing(threads[1..])
  {
    var tail := threads[1..];
    forall i, j | 0 <= i < j < |tail| ensures tail[i] < tail[j] {
      assert tail[i] == threads[i + 1] && tail[j] == threads[j + 1];
    }
  }

  /** Every row of the sweep over the remaining thread counts has more
      threads than the first count. */
  lemma SweepTailAbove(name: string, threads: seq<int>, baseline: real, agg: int -> Option<Aggregate>)
    requires AllPositive(threads) && StrictlyIncreasing(threads) && threads != []
    ensures forall r :: r in Sweep(name, threads[1..], baseline, agg) ==> threads[0] < r.threads
  {
    var tail := threads[1..];
    var rest := Sweep(name, tail, baseline, agg);
    forall r | r in rest ensures threads[0] < r.threads {
      var k :| 0 <= k < |rest| && rest[k] == r;
      assert r.threads in tail;
      var m :| 0 <= m < |tail| && tail[m] == r.threads;
      assert threads[m + 1] == tail[m];
    }
  }

  lemma ConsAscending(x: Record, rest: seq<Record>)
    requires AscendingThreads(rest)
    requires forall r :: r in rest ==> x.threads < r.threads
    ensures AscendingThreads([x] + rest)
  {
    var r := [x] + rest;
    forall i, j | 0 <= i < j < |r| ensures r[i].threads < r[j].threads {
      assert r[j] == rest[j - 1];
      if i > 0 {
        assert r[i] == rest[i - 1];
      }
    }
  }

  /** Rows of a sweep over an ascending thread list come out ascending,
      whichever configurations were skipped. */
  lemma {:induction false} SweepAscending(name: string, threads: seq<int>, baseline: real, agg: int -> Option<Aggregate>)
    requires AllPositive(threads) && StrictlyIncreasing(threads)
    ensures AscendingThreads(Sweep(name, threads, baseline, agg))
    decreases |threads|
  {
    if threads != [] {
      var tail := threads[1..];
      TailIncreasing(threads);
      SweepAscending(name, tail, baseline, agg);
      var rest := Sweep(name, tail, baseline, agg);
      var r := Sweep(name, threads, baseline, agg);
      if agg(threads[0]).Some? {
        assert r == [ParallelRecord(name, threads[0], agg(threads[0]).value, baseline)] + rest;
        SweepTailAbove(name, threads, baseline, agg);
        ConsAscending(r[0], rest);
      } else {
        assert r == rest;
      }
    }
  }

  /** The child processes a sweep issues: every thread count, `runs` times
      each, whatever the outcomes. */
  function SweepCalls(argvOf: int -> seq<string>, threads: seq<int>, runs: int): (calls: seq<Invocation>)
    ensures |calls| == |threads| * RunCount(runs)
  {
    if threads == [] then []
    else ConfigCalls(argvOf(threads[0]), runs) + SweepCalls(argvOf, threads[1..], runs)
  }

  /** Each call of a sweep runs one of the swept configurations. */
  lemma {:induction false} SweepCallsFrom(argvOf: int -> seq<string>, threads: seq<int>, runs: int)
    ensures forall c :: c in SweepCalls(argvOf, threads, runs) ==>
      c.run < RunCount(runs) && exists th :: th in threads && c.argv == argvOf(th)
    decreases |threads|
  {
    if threads != [] {
      SweepCallsFrom(argvOf, threads[1..], runs);
      var head := ConfigCalls(argvOf(threads[0]), runs);
      var tail := SweepCalls(argvOf, threads[1..], runs);
      forall c: Invocation | c in head + tail
        ensures c.run < RunCount(runs) && exists th :: th in threads && c.argv == argvOf(th)
      {
        if c in head {
          var k :| 0 <= k < |head| && head[k] == c;
          var w := threads[0];
          assert w in threads && c.argv == argvOf(w);
        } else {
          assert c in tail;
          var th :| th in threads[1..] && c.argv == argvOf(th);
          assert th in threads;
        }
      }
    }
  }

  /** Conversely, every swept configuration is run once for each index
      `0 .. runs - 1`: no configuration is skipped or short of runs. */
  lemma {:induction false} SweepCallsCover(argvOf: int -> seq<string>, threads: seq<int>, runs: int)
    ensures forall th, k :: th in threads && 0 <= k < RunCount(runs) ==>
      Invocation(argvOf(th), k) in SweepCalls(argvOf, threads, runs)
    decreases |threads|
  {
    if threads != [] {
      SweepCallsCover(argvOf, threads[1..], runs);
      var head := ConfigCalls(argvOf(threads[0]), runs);
      var tail := SweepCalls(argvOf, threads[1..], runs);
      assert SweepCalls(argvOf, threads, runs) == head + tail;
      forall th, k | th in threads && 0 <= k < RunCount(runs)
        ensures Invocation(argvOf(th), k) in head + tail
      {
        if th == threads[0] {
          assert head[k] == Invocation(argvOf(th), k);
        } else {
          assert th in threads[1..];
          assert Invocation(argvOf(th), k) in tail;
        }
      }
    }
  }

  /** `a` comes before `b` in a tester's output: an earlier method, or the
      same method with fewer threads. */
  predicate Precedes(a: Record, b: Record, rank: string -> int)
  {
    rank(a.name) < rank(b.name) || (rank(a.name) == rank(b.name) && a.threads < b.threads)
  }

  predicate OrderedBy(rs: seq<Record>, rank: string -> int)
  {
    forall i, j :: 0 <= i < j < |rs| ==> Precedes(rs[i], rs[j], rank)
  }

  lemma OrderedAppend(a: seq<Record>, b: seq<Record>, rank: string -> int)
    requires OrderedBy(a, rank) && OrderedBy(b, rank)
    requires forall i, j :: 0 <= i < |a| && 0 <= j < |b| ==> Precedes(a[i], b[j], rank)
    ensures OrderedBy(a + b, rank)
  {
    var ab := a + b;
    forall i, j | 0 <= i < j < |ab|
      ensures Precedes(ab[i], ab[j], rank)
    {
      if j < |a| {
        assert ab[i] == a[i] && ab[j] == a[j];
      } else if i >= |a| {
        assert ab[i] == b[i - |a|] && ab[j] == b[j - |a|];
      } else {
        assert ab[i] == a[i] && ab[j] == b[j - |a|];
      }
    }
  }

  /** Two ordered blocks stay ordered when every method of the first ranks
      no later than `split` and every method of the second later. */
  lemma OrderedByBlocks(a: seq<Record>, b: seq<Record>, rank: string -> int, split: int)
    requires OrderedBy(a, rank) && OrderedBy(b, rank)
    requires forall r :: r in a ==> rank(r.name) <= split
    requires forall r :: r in b ==> rank(r.name) > split
    ensures OrderedBy(a + b, rank)
  {
    forall i, j | 0 <= i < |a| && 0 <= j < |b|
      ensures Precedes(a[i], b[j], rank)
    {
      assert a[i] in a && b[j] in b;
    }
    OrderedAppend(a, b, rank);
  }

  /** A sweep over ascending thread counts is ordered under any ranking,
      since all its rows carry the same method. */
  lemma SweepOrdered(name: string, threads: seq<int>, baseline: real, agg: int -> Option<Aggregate>, rank: string -> int)
    requires AllPositive(threads) && StrictlyIncreasing(threads)
    ensures OrderedBy(Sweep(name, threads, baseline, agg), rank)
  {
    SweepAscending(name, threads, baseline, agg);
    var r := Sweep(name, threads, baseline, agg);
    forall i, j | 0 <= i < j < |r| ensures Precedes(r[i], r[j], rank) {
      assert r[i].name == r[j].name == name;
    }
  }

  /** A worked sweep: baseline 1.0 s, means 1.0, 0.52 and 0.3 s at 1, 2 and
      4 threads give speedups 1, 25/13 and 10/3 with efficiencies 1, 25/26
      and 5/6; a thread count whose trials all failed is simply absent. */
  lemma SweepExample()
    ensures Sweep("Rectangle (OpenMP)", [1, 2, 4, 8], 1.0,
                  th => if th == 1 then Some(Aggregate(1.0, None))
                        else if th == 2 then Some(Aggregate(0.52, None))
                        else if th == 4 then Some(Aggregate(0.3, None))
                        else None)
         == [Record("Rectangle (OpenMP)", 1, 1.0, None, Finite(1.0), Finite(1.0)),
             Record("Rectangle (OpenMP)", 2, 0.52, None, Finite(25.0 / 13.0), Finite(25.0 / 26.0)),
             Record("Rectangle (OpenMP)", 4, 0.3, None, Finite(10.0 / 3.0), Finite(5.0 / 6.0))]
  {
    var name := "Rectangle (OpenMP)";
    var agg := th => if th == 1 then Some(Aggregate(1.0, None))
                     else if th == 2 then Some(Aggregate(0.52, None))
                     else if th == 4 then Some(Aggregate(0.3, None))
                     else None;
    var ts := [1, 2, 4, 8];
    var r1 := ParallelRecord(name, 1, Aggregate(1.0, None), 1.0);
    var r2 := ParallelRecord(name, 2, Aggregate(0.52, None), 1.0);
    var r4 := ParallelRecord(name, 4, Aggregate(0.3, None), 1.0);
    assert Divide(1.0, 0.52) == Finite(25.0 / 13.0);
    assert Divide(1.0, 0.3) == Finite(10.0 / 3.0);
    assert r2 == Record(name, 2, 0.52, None, Finite(25.0 / 13.0), Finite(25.0 / 26.0));
    assert r4 == Record(name, 4, 0.3, None, Finite(10.0 / 3.0), Finite(5.0 / 6.0));
    assert ts[1..] == [2, 4, 8] && ts[1..][1..] == [4, 8] && ts[1..][1..][1..] == [8];
    assert [8][1..] == [];
    assert Sweep(name, [8], 1.0, agg) == [];
    assert Sweep(name, [4, 8], 1.0, agg) == [r4];
    assert Sweep(name, [2, 4, 8], 1.0, agg) == [r2, r4];
    assert Sweep(name, ts, 1.0, agg) == [r1, r2, r4];
  }
}

=== FILE: integration.dfy ===
/** The numerical-integration tester: four kernel methods (1 rectangle and
    2 trapezoidal with OpenMP, 3 and 4 their sequential versions), a
    four-field result line carrying the time and the computed area, an
    accuracy warning against the analytic value 2 of the integral of sin
    over [0, pi], and one sequential baseline per rule. */
module Integration {
  import opened Wrappers
  import opened Text
  import opened Stats
  import opened Harness

  const Executable: string := "./numerical-integration"
  const ThreadCounts: seq<int> := [1, 2, 4, 8, 16]
  /** Analytic value of the integral of sin(x) over [0, pi]. */
  const ExpectedResult: real := 2.0
  /** Relative error above which a trial is flagged (1%). */
  const Tolerance: real := 0.01
  /** `method,threads,time,area` */
  const FieldCount: nat := 4

  const RectangleOpenMP: string := "Rectangle (OpenMP)"
  const TrapezoidalOpenMP: string := "Trapezoidal (OpenMP)"
  const RectangleSequential: string := "Rectangle (Sequential)"
  const TrapezoidalSequential: string := "Trapezoidal (Sequential)"

  /** Integration bounds and step size passed to every kernel call. */
  datatype Tester = Tester(x1: real, x2: real, dx: real)

  predicate ValidMethod(id: int) {
    1 <= id <= 4
  }

  predicate IsSequential(id: int) {
    id >= 3
  }

  /** The thread count actually passed to the kernel. */
  function ActualThreads(id: int, threads: int): int {
    if IsSequential(id) then 1 else threads
  }

  /** `[exe, str(x1), str(x2), str(dx), str(method), str(actual_threads)]` */
  function Argv(env: Env, t: Tester, id: int, threads: int): seq<string> {
    [Executable, env.showReal(t.x1), env.showReal(t.x2), env.showReal(t.dx),
     IntToString(id), IntToString(ActualThreads(id, threads))]
  }

  /** The argument vector has the kernel's six-word batch shape, and the
      kernel reads back the method id and, for a sequential method, one
      thread whatever was asked for. */
  lemma ArgvCarriesConfiguration(env: Env, t: Tester, id: int, threads: int)
    ensures var argv := Argv(env, t, id, threads);
      && |argv| == 6
      && argv[..4] == [Executable, env.showReal(t.x1), env.showReal(t.x2), env.showReal(t.dx)]
      && ParseInt(argv[4]) == Some(id)
      && ParseInt(argv[5]) == Some(if id >= 3 then 1 else threads)
  {
    IntToStringRoundTrip(id);
    IntToStringRoundTrip(ActualThreads(id, threads));
  }

  /** Outcome of `run_single_test`: a time, an area and whether the accuracy
      warning was printed, or `(None, None)`. */
  datatype Trial = Measured(time: real, area: real, warned: bool) | Dropped(why: Failure)

  function Abs(x: real): real {
    if x < 0.0 then -x else x
  }

  /** The accuracy warning: relative error strictly above the tolerance. */
  predicate Warns(area: real) {
    Abs(area - ExpectedResult) / ExpectedResult > Tolerance
  }

  /** The warning band in absolute terms: anything outside [1.98, 2.02]. */
  lemma WarnsIff(area: real)
    ensures Warns(area) <==> area < 1.98 || area > 2.02
  {
  }

  /** Exactly 1% does not warn; 0.99% does not; 1.01% does. */
  lemma WarnBoundary()
    ensures !Warns(2.02) && !Warns(1.98)
    ensures !Warns(2.0198) && !Warns(1.9802)
    ensures Warns(2.0202) && Warns(1.9798)
  {
  }

  function RunSingleTest(env: Env, t: Tester, id: int, threads: int, run: nat): (r: Trial)
    requires ValidMethod(id)
    ensures var o := env.run(Invocation(Argv(env, t, id, threads), run));
      && (o.TimedOut? ==> r == Dropped(Timeout))
      && (o.LaunchFailed? ==> r == Dropped(LaunchError))
      && (o.Completed? && o.exitCode != 0 ==> r == Dropped(NonZeroExit(o.exitCode)))
      && (r.Measured? ==>
            && o.Completed? && o.exitCode == 0
            && Fields(o, FieldCount).Success?
            && env.parseNum(Fields(o, FieldCount).value[2]) == Some(r.time)
            && env.parseNum(Fields(o, FieldCount).value[3]) == Some(r.area)
            && (r.warned <==> Warns(r.area)))
      && ((Fields(o, FieldCount).Success?
             && env.parseNum(Fields(o, FieldCount).value[2]).Some?
             && env.parseNum(Fields(o, FieldCount).value[3]).Some?) ==> r.Measured?)
  {
    var o := env.run(Invocation(Argv(env, t, id, threads), run));
    match Fields(o, FieldCount)
    case Failure(why) => Dropped(why)
    case Success(parts) =>
      match (env.parseNum(parts[2]), env.parseNum(parts[3]))
      case (Some(time), Some(area)) => Measured(time, area, Warns(area))
      case _ => Dropped(NotANumber)
  }

  /** A sequential method runs on one thread: its trials do not depend on
      the thread count requested. */
  lemma SequentialIgnoresThreads(env: Env, t: Tester, id: int, a: int, b: int, run: nat)
    requires ValidMethod(id) && IsSequential(id)
    ensures Argv(env, t, id, a) == Argv(env, t, id, b)
    ensures RunSingleTest(env, t, id, a, run) == RunSingleTest(env, t, id, b, run)
  {
  }

  /** Round trip with the kernel's batch output (a blank line, then
      `method,threads,time,area`): the trial is measured exactly when both
      numbers convert, with those numbers, and a large error only raises
      the warning flag. */
  lemma TrialOfKernelLine(env: Env, t: Tester, id: int, threads: int, run: nat,
                          m: string, th: string, time: string, area: string)
    requires ValidMethod(id)
    requires WellFormedFields([m, th, time, area])
    requires env.run(Invocation(Argv(env, t, id, threads), run))
          == Completed(0, "\n" + Join([m, th, time, area], ',') + "\n")
    ensures var r := RunSingleTest(env, t, id, threads, run);
      && (r.Measured? <==> env.parseNum(time).Some? && env.parseNum(area).Some?)
      && (r.Measured? ==>
            r == Measured(env.parseNum(time).value, env.parseNum(area).value, Warns(env.parseNum(area).value)))
  {
    FieldsOfKernelLine([m, th, time, area], FieldCount);
  }

  /** A line with any other number of fields is dropped. */
  lemma WrongShapeDropped(env: Env, t: Tester, id: int, threads: int, run: nat, fields: seq<string>)
    requires ValidMethod(id)
    requires WellFormedFields(fields) && |fields| != FieldCount
    requires env.run(Invocation(Argv(env, t, id, threads), run))
          == Completed(0, "\n" + Join(fields, ',') + "\n")
    ensures RunSingleTest(env, t, id, threads, run) == Dropped(WrongFieldCount(|fields|))
  {
    FieldsOfKernelLine(fields, FieldCount);
  }

  /** The `runs` trials of one configuration, in order. */
  function Trials(env: Env, t: Tester, id: int, threads: int, runs: int): (ts: seq<Trial>)
    requires ValidMethod(id)
    ensures |ts| == RunCount(runs)
    ensures forall k :: 0 <= k < |ts| ==> ts[k] == RunSingleTest(env, t, id, threads, k)
  {
    seq(RunCount(runs), k requires 0 <= k => RunSingleTest(env, t, id, threads, k))
  }

  function AsSample(tr: Trial): Option<(real, real)> {
    if tr.Measured? then Some((tr.time, tr.area)) else None
  }

  /** (time, area) of each measured trial, in trial order. */
  function Successes(ts: seq<Trial>): (ok: seq<(real, real)>)
    ensures |ok| <= |ts|
    ensures ok == [] <==> forall k :: 0 <= k < |ts| ==> ts[k].Dropped?
  {
    var samples := seq(|ts|, k requires 0 <= k < |ts| => AsSample(ts[k]));
    assert forall k :: 0 <= k < |ts| ==> (samples[k].None? <==> ts[k].Dropped?);
    Keep(samples)
  }

  /** A dropped trial leaves the surviving sample unchanged. */
  lemma DroppedTrialIgnored(before: seq<Trial>, why: Failure, after: seq<Trial>)
    ensures Successes(before + [Dropped(why)] + after) == Successes(before + after)
  {
    var f := (ts: seq<Trial>) => seq(|ts|, k requires 0 <= k < |ts| => AsSample(ts[k]));
    assert f(before + [Dropped(why)] + after) == f(before) + [None] + f(after);
    assert f(before + after) == f(before) + f(after);
    DroppedTrialIsInvisible(f(before), f(after));
  }

  function Times(ok: seq<(real, real)>): (r: seq<real>)
    ensures |r| == |ok|
  {
    seq(|ok|, k requires 0 <= k < |ok| => ok[k].0)
  }

  function Areas(ok: seq<(real, real)>): (r: seq<real>)
    ensures |r| == |ok|
  {
    seq(|ok|, k requires 0 <= k < |ok| => ok[k].1)
  }

  /** Mean time and mean area over the measured trials of a list of
      trials; `None` when every trial was dropped. */
  function Summary(ts: seq<Trial>): (a: Option<Aggregate>)
    ensures a.None? <==> forall k :: 0 <= k < |ts| ==> ts[k].Dropped?
    ensures a.Some? ==> a.value.area.Some?
  {
    var ok := Successes(ts);
    if ok == [] then None
    else Some(Aggregate(Mean(Times(ok)), Some(Mean(Areas(ok)))))
  }

  /** A dropped trial moves neither mean: `np.mean` sees only the kept
      samples. */
  lemma SummaryIgnoresDropped(before: seq<Trial>, why: Failure, after: seq<Trial>)
    ensures Summary(before + [Dropped(why)] + after) == Summary(before + after)
  {
    DroppedTrialIgnored(before, why, after);
  }

  /** With no trial dropped the aggregate is the plain mean of the trial
      times and of the trial areas, in trial order. */
  lemma SummaryOfMeasured(ts: seq<Trial>)
    requires |ts| > 0 && forall k :: 0 <= k < |ts| ==> ts[k].Measured?
    ensures Summary(ts) == Some(Aggregate(
      Mean(seq(|ts|, k requires 0 <= k < |ts| => ts[k].time)),
      Some(Mean(seq(|ts|, k requires 0 <= k < |ts| => ts[k].area)))))
  {
    var samples := seq(|ts|, k requires 0 <= k < |ts| => AsSample(ts[k]));
    KeepAllSome(samples);
    var ok := Successes(ts);
    assert ok == Keep(samples);
    assert Times(ok) == seq(|ts|, k requires 0 <= k < |ts| => ts[k].time);
    assert Areas(ok) == seq(|ts|, k requires 0 <= k < |ts| => ts[k].area);
  }

  /** The aggregate of one configuration over its `runs` trials. */
  function Aggregated(env: Env, t: Tester, id: int, threads: int, runs: int): (a: Option<Aggregate>)
    requires ValidMethod(id)
    ensures var ts := Trials(env, t, id, threads, runs);
      a.None? <==> forall k :: 0 <= k < |ts| ==> ts[k].Dropped?
    ensures a.Some? ==> a.value.area.Some?
  {
    Summary(Trials(env, t, id, threads, runs))
  }

  /** Every kept sample is the time and area of a measured trial. */
  lemma SuccessesWithin(ts: seq<Trial>, lo: real, hi: real, areaLo: real, areaHi: real)
    requires forall k :: 0 <= k < |ts| ==>
      ts[k].Measured? ==> lo <= ts[k].time <= hi && areaLo <= ts[k].area <= areaHi
    ensures var ok := Successes(ts);
      forall k :: 0 <= k < |ok| ==> lo <= ok[k].0 <= hi && areaLo <= ok[k].1 <= areaHi
  {
    var samples := seq(|ts|, k requires 0 <= k < |ts| => AsSample(ts[k]));
    var ok := Successes(ts);
    assert ok == Keep(samples);
    forall k | 0 <= k < |ok|
      ensures lo <= ok[k].0 <= hi && areaLo <= ok[k].1 <= areaHi
    {
      var i :| 0 <= i < |samples| && samples[i] == Some(ok[k]);
      assert ts[i].Measured? && ts[i].time == ok[k].0 && ts[i].area == ok[k].1;
    }
  }

  /** The mean time and mean area lie within any ranges that hold every
      measured trial: the means are taken over the successful trials only. */
  lemma SummaryWithinObserved(ts: seq<Trial>, lo: real, hi: real, areaLo: real, areaHi: real)
    requires forall k :: 0 <= k < |ts| ==>
      ts[k].Measured? ==> lo <= ts[k].time <= hi && areaLo <= ts[k].area <= areaHi
    ensures var a := Summary(ts);
      a.Some? ==> lo <= a.value.time <= hi && areaLo <= a.value.area.value <= areaHi
  {
    SuccessesWithin(ts, lo, hi, areaLo, areaHi);
    var ok := Successes(ts);
    if ok != [] {
      MeanBounds(Times(ok), lo, hi);
      MeanBounds(Areas(ok), areaLo, areaHi);
    }
  }

  /** The same bound for one configuration of the tester. */
  lemma AggregateWithinObserved(env: Env, t: Tester, id: int, threads: int, runs: int,
                                lo: real, hi: real, areaLo: real, areaHi: real)
    requires ValidMethod(id)
    requires var ts := Trials(env, t, id, threads, runs);
      forall k :: 0 <= k < |ts| ==>
        ts[k].Measured? ==> lo <= ts[k].time <= hi && areaLo <= ts[k].area <= areaHi
    ensures var a := Aggregated(env, t, id, threads, runs);
      a.Some? ==> lo <= a.value.time <= hi && areaLo <= a.value.area.value <= areaHi
  {
    SummaryWithinObserved(Trials(env, t, id, threads, runs), lo, hi, areaLo, areaHi);
  }

  /** The row a sequential method contributes: none when all its trials
      were dropped. */
  function RowOf(name: string, a: Option<Aggregate>): seq<Record> {
    match a
    case None => []
    case Some(v) => [SequentialRecord(name, v)]
  }

  /** A row the scan takes as the rectangle baseline: its name contains
      the sequential rectangle name. */
  predicate RectangleRow(r: Record) {
    Contains(r.name, RectangleSequential)
  }

  /** A row the scan takes as the trapezoidal baseline: the `elif` branch,
      so only when the rectangle test failed. */
  predicate TrapezoidalRow(r: Record) {
    !Contains(r.name, RectangleSequential) && Contains(r.name, TrapezoidalSequential)
  }

  /** The loop that recovers the baselines from `results` by substring
      test on the method name; a later match overwrites an earlier one. */
  function ScanBaselines(results: seq<Record>, rect: Option<real>, trap: Option<real>): (Option<real>, Option<real>)
    decreases |results|
  {
    if results == [] then (rect, trap)
    else if Contains(results[0].name, RectangleSequential) then ScanBaselines(results[1..], Some(results[0].time), trap)
    else if Contains(results[0].name, TrapezoidalSequential) then ScanBaselines(results[1..], rect, Some(results[0].time))
    else ScanBaselines(results[1..], rect, trap)
  }

  /** The scan keeps the time of the LAST row naming the sequential
      rectangle method, and the starting value when no row does. */
  lemma {:induction false} ScanRectangleLast(results: seq<Record>, rect: Option<real>, trap: Option<real>)
    ensures (forall k :: 0 <= k < |results| ==> !RectangleRow(results[k]))
            ==> ScanBaselines(results, rect, trap).0 == rect
    ensures forall k :: (0 <= k < |results| && RectangleRow(results[k])
                         && forall j :: k < j < |results| ==> !RectangleRow(results[j]))
                        ==> ScanBaselines(results, rect, trap).0 == Some(results[k].time)
    decreases |results|
  {
    if results != [] {
      var head, rest := results[0], results[1..];
      var rect', trap' := if RectangleRow(head) then Some(head.time) else rect,
                          if !RectangleRow(head) && TrapezoidalRow(head) then Some(head.time) else trap;
      assert ScanBaselines(results, rect, trap) == ScanBaselines(rest, rect', trap');
      ScanRectangleLast(rest, rect', trap');
      forall k | (0 <= k < |results| && RectangleRow(results[k])
                  && forall j :: k < j < |results| ==> !RectangleRow(results[j]))
        ensures ScanBaselines(results, rect, trap).0 == Some(results[k].time)
      {
        if k == 0 {
          assert forall j :: 0 <= j < |rest| ==> !RectangleRow(rest[j]) by {
            forall j | 0 <= j < |rest| ensures !RectangleRow(rest[j]) {
              assert rest[j] == results[j + 1];
            }
          }
        } else {
          assert rest[k - 1] == results[k];
          assert forall j :: k - 1 < j < |rest| ==> !RectangleRow(rest[j]) by {
            forall j | k - 1 < j < |rest| ensures !RectangleRow(rest[j]) {
              assert rest[j] == results[j + 1];
            }
          }
        }
      }
      if forall k :: 0 <= k < |results| ==> !RectangleRow(results[k]) {
        assert !RectangleRow(results[0]);
        assert forall j :: 0 <= j < |rest| ==> !RectangleRow(rest[j]) by {
          forall j | 0 <= j < |rest| ensures !RectangleRow(rest[j]) {
            assert rest[j] == results[j + 1];
          }
        }
      }
    }
  }

  /** The same for the trapezoidal baseline, over the rows the `elif`
      reaches. */
  lemma {:induction false} ScanTrapezoidalLast(results: seq<Record>, rect: Option<real>, trap: Option<real>)
    ensures (forall k :: 0 <= k < |results| ==> !TrapezoidalRow(results[k]))
            ==> ScanBaselines(results, rect, trap).1 == trap
    ensures forall k :: (0 <= k < |results| && TrapezoidalRow(results[k])
                         && forall j :: k < j < |results| ==> !TrapezoidalRow(results[j]))
                        ==> ScanBaselines(results, rect, trap).1 == Some(results[k].time)
    decreases |results|
  {
    if results != [] {
      var head, rest := results[0], results[1..];
      var rect', trap' := if RectangleRow(head) then Some(head.time) else rect,
                          if !RectangleRow(head) && TrapezoidalRow(head) then Some(head.time) else trap;
      assert ScanBaselines(results, rect, trap) == ScanBaselines(rest, rect', trap');
      ScanTrapezoidalLast(rest, rect', trap');
      forall k | (0 <= k < |results| && TrapezoidalRow(results[k])
                  && forall j :: k < j < |results| ==> !TrapezoidalRow(results[j]))
        ensures ScanBaselines(results, rect, trap).1 == Some(results[k].time)
      {
        if k == 0 {
          assert forall j :: 0 <= j < |rest| ==> !TrapezoidalRow(rest[j]) by {
            forall j | 0 <= j < |rest| ensures !TrapezoidalRow(rest[j]) {
              assert rest[j] == results[j + 1];
            }
          }
        } else {
          assert rest[k - 1] == results[k];
          assert forall j :: k - 1 < j < |rest| ==> !TrapezoidalRow(rest[j]) by {
            forall j | k - 1 < j < |rest| ensures !TrapezoidalRow(rest[j]) {
              assert rest[j] == results[j + 1];
            }
          }
        }
      }
      if forall k :: 0 <= k < |results| ==> !TrapezoidalRow(results[k]) {
        assert !TrapezoidalRow(results[0]);
        assert forall j :: 0 <= j < |rest| ==> !TrapezoidalRow(rest[j]) by {
          forall j | 0 <= j < |rest| ensures !TrapezoidalRow(rest[j]) {
            assert rest[j] == results[j + 1];
          }
        }
      }
    }
  }

  /** The baseline `run_all_tests` picks for a parallel method. */
  function BaselineFor(id: int, rect: Option<real>, trap: Option<real>): Option<real> {
    if id == 1 then rect else trap
  }

  /** One parallel method over the thread sweep; nothing at all when its
      baseline is missing (`continue`). */
  function ParallelStage(name: string, baseline: Option<real>, agg: int -> Option<Aggregate>): seq<Record> {
    match baseline
    case None => []
    case Some(b) => Sweep(name, ThreadCounts, b, agg)
  }

  /** The `results` list `run_all_tests` builds, given the aggregate of the
      two sequential configurations and of every parallel configuration:
      the sequential rows, the baseline scan, then method 1 and method 2. */
  function Results(a3: Option<Aggregate>, a4: Option<Aggregate>,
                   agg1: int -> Option<Aggregate>, agg2: int -> Option<Aggregate>): seq<Record>
  {
    var seqRows := RowOf(RectangleSequential, a3) + RowOf(TrapezoidalSequential, a4);
    var (rect, trap) := ScanBaselines(seqRows, None, None);
    seqRows
      + ParallelStage(RectangleOpenMP, BaselineFor(1, rect, trap), agg1)
      + ParallelStage(TrapezoidalOpenMP, BaselineFor(2, rect, trap), agg2)
  }

  function ParallelCalls(env: Env, t: Tester, runs: int, id: int, baseline: Option<real>): seq<Invocation> {
    if baseline.None? then [] else SweepCalls(th => Argv(env, t, id, th), ThreadCounts, runs)
  }

  /** `run_all_tests(runs)`: results are reset, the sequential baselines
      measured with one thread, then method 1 and method 2 swept over the
      thread counts. */
  function RunAllTests(env: Env, t: Tester, runs: int): Report {
    var a3 := Aggregated(env, t, 3, 1, runs);
    var a4 := Aggregated(env, t, 4, 1, runs);
    Report(
      Results(a3, a4, th => Aggregated(env, t, 1, th, runs), th => Aggregated(env, t, 2, th, runs)),
      Calls(env, t, runs, a3, a4))
  }

  /** The whole of `run_all_tests`: rows in output order, one per method
      and thread count at most; the sequential configurations run first and
      a parallel method's configurations run only when its baseline exists;
      every parallel row is measured against its own method's sequential
      time. */
  lemma RunAllTestsReport(env: Env, t: Tester, runs: int)
    ensures var rep := RunAllTests(env, t, runs);
      var a3 := Aggregated(env, t, 3, 1, runs);
      var a4 := Aggregated(env, t, 4, 1, runs);
      var n := RunCount(runs);
      && |rep.records| <= 12 && OrderedBy(rep.records, Rank)
      && (forall r :: r in rep.records ==>
            || r.name == RectangleSequential || r.name == TrapezoidalSequential
            || r.name == RectangleOpenMP || r.name == TrapezoidalOpenMP)
      && |rep.calls| == 2 * n + (if a3.Some? then 5 * n else 0) + (if a4.Some? then 5 * n else 0)
      && rep.calls[..n] == ConfigCalls(Argv(env, t, 3, 1), runs)
      && rep.calls[n..2 * n] == ConfigCalls(Argv(env, t, 4, 1), runs)
      && (forall r :: r in rep.records && r.name == RectangleOpenMP ==>
            && TimeOf(Aggregated(env, t, 1, r.threads, runs)) == Some(r.time)
            && a3.Some? && MeasuredAgainst(r, a3.value.time))
      && (forall r :: r in rep.records && r.name == TrapezoidalOpenMP ==>
            && TimeOf(Aggregated(env, t, 2, r.threads, runs)) == Some(r.time)
            && a4.Some? && MeasuredAgainst(r, a4.value.time))
      && (forall c :: c in rep.calls ==>
            c.run < n && exists id, th :: c.argv == Argv(env, t, id, th) && Scheduled(id, th, a3.Some?, a4.Some?))
      && (forall id, th, k :: Scheduled(id, th, a3.Some?, a4.Some?) && 0 <= k < n ==>
            Invocation(Argv(env, t, id, th), k) in rep.calls)
  {
    var a3 := Aggregated(env, t, 3, 1, runs);
    var a4 := Aggregated(env, t, 4, 1, runs);
    var agg1 := th => Aggregated(env, t, 1, th, runs);
    var agg2 := th => Aggregated(env, t, 2, th, runs);
    var rep := RunAllTests(env, t, runs);
    var recs := Results(a3, a4, agg1, agg2);
    assert rep.records == recs;
    assert rep.calls == Calls(env, t, runs, a3, a4);
    ResultsOrdered(a3, a4, agg1, agg2);
    CallsCount(env, t, runs, a3, a4);
    CallsScheduled(env, t, runs, a3, a4);
    ParallelRowsUseOwnBaseline(a3, a4, agg1, agg2);
    assert forall r :: r in recs ==>
        || r.name == RectangleSequential || r.name == TrapezoidalSequential
        || r.name == RectangleOpenMP || r.name == TrapezoidalOpenMP
    by {
      ResultsMembers(a3, a4, agg1, agg2);
      ParallelStageFacts(RectangleOpenMP, TimeOf(a3), agg1);
      ParallelStageFacts(TrapezoidalOpenMP, TimeOf(a4), agg2);
    }
  }

  /** The child processes of `run_all_tests`, in order, given the outcome
      of the two sequential configurations. */
  function Calls(env: Env, t: Tester, runs: int, a3: Option<Aggregate>, a4: Option<Aggregate>): seq<Invocation> {
    var (rect, trap) := ScanBaselines(RowOf(RectangleSequential, a3) + RowOf(TrapezoidalSequential, a4), None, None);
    ConfigCalls(Argv(env, t, 3, 1), runs) + ConfigCalls(Argv(env, t, 4, 1), runs)
      + ParallelCalls(env, t, runs, 1, BaselineFor(1, rect, trap))
      + ParallelCalls(env, t, runs, 2, BaselineFor(2, rect, trap))
  }

  /** Position of a method in the output order. */
  function Rank(name: string): int {
    if name == RectangleSequential then 0
    else if name == TrapezoidalSequential then 1
    else if name == RectangleOpenMP then 2
    else if name == TrapezoidalOpenMP then 3
    else 4
  }

  lemma SequentialNamesDistinguished()
    ensures Contains(RectangleSequential, RectangleSequential)
    ensures !Contains(TrapezoidalSequential, RectangleSequential)
    ensures Contains(TrapezoidalSequential, TrapezoidalSequential)
  {
    var h := TrapezoidalSequential;
    assert h[..|RectangleSequential|] != RectangleSequential by { assert h[0] != RectangleSequential[0]; }
    assert h[1..][..|RectangleSequential|] != RectangleSequential by { assert h[1..][0] != RectangleSequential[0]; }
    assert h[2..][..|RectangleSequential|] != RectangleSequential by { assert h[2..][0] != RectangleSequential[0]; }
    assert !Contains(h[3..], RectangleSequential);
    assert !Contains(h[2..], RectangleSequential) by { assert h[2..][1..] == h[3..]; }
    assert !Contains(h[1..], RectangleSequential) by { assert h[1..][1..] == h[2..]; }
  }

  lemma ScanTrapezoidalRow(a4: Option<Aggregate>, rect: Option<real>)
    ensures ScanBaselines(RowOf(TrapezoidalSequential, a4), rect, None) == (rect, TimeOf(a4))
  {
    SequentialNamesDistinguished();
  }

  lemma ScanSequentialRows(a3: Option<Aggregate>, a4: Option<Aggregate>)
    ensures ScanBaselines(RowOf(RectangleSequential, a3) + RowOf(TrapezoidalSequential, a4), None, None)
         == (TimeOf(a3), TimeOf(a4))
  {
    SequentialNamesDistinguished();
    var r3: seq<Record> := RowOf(RectangleSequential, a3);
    var r4: seq<Record> := RowOf(TrapezoidalSequential, a4);
    ScanTrapezoidalRow(a4, TimeOf(a3));
    if r3 != [] {
      assert (r3 + r4)[1..] == r4;
      assert r3[0].name == RectangleSequential && (r3 + r4)[0] == r3[0];
    } else {
      assert r3 + r4 == r4;
    }
  }

  lemma NamesDistinct()
    ensures |RectangleSequential| == 22 && |TrapezoidalSequential| == 24
    ensures |RectangleOpenMP| == 18 && |TrapezoidalOpenMP| == 20
    ensures Rank(RectangleSequential) == 0 && Rank(TrapezoidalSequential) == 1
    ensures Rank(RectangleOpenMP) == 2 && Rank(TrapezoidalOpenMP) == 3
  {
  }

  lemma ThreadCountsAscending()
    ensures AllPositive(ThreadCounts) && StrictlyIncreasing(ThreadCounts)
  {
  }

  /** After the baseline scan, each parallel method is paired with its own
      rule's sequential mean. */
  lemma ResultsShape(a3: Option<Aggregate>, a4: Option<Aggregate>,
                     agg1: int -> Option<Aggregate>, agg2: int -> Option<Aggregate>)
    ensures Results(a3, a4, agg1, agg2)
         == RowOf(RectangleSequential, a3) + RowOf(TrapezoidalSequential, a4)
            + ParallelStage(RectangleOpenMP, TimeOf(a3), agg1)
            + ParallelStage(TrapezoidalOpenMP, TimeOf(a4), agg2)
  {
    ScanSequentialRows(a3, a4);
  }

  lemma ParallelStageFacts(name: string, baseline: Option<real>, agg: int -> Option<Aggregate>)
    ensures var p := ParallelStage(name, baseline, agg);
      && |p| <= |ThreadCounts|
      && (baseline.None? ==> p == [])
      && (forall r :: r in p ==>
            && r.name == name && baseline.Some?
            && r.threads in ThreadCounts && agg(r.threads).Some?
            && r.time == agg(r.threads).value.time
            && MeasuredAgainst(r, baseline.value))
      && (forall th :: th in ThreadCounts && baseline.Some? && agg(th).Some? ==>
            exists r :: r in p && r.name == name && r.threads == th)
  {
    ThreadCountsAscending();
    if baseline.Some? {
      SweepFacts(name, ThreadCounts, baseline.value, agg);
    }
  }

  /** Output order: sequential rectangle, sequential trapezoidal, method 1
      by ascending threads, method 2 by ascending threads; at most 12 rows. */
  lemma ResultsOrdered(a3: Option<Aggregate>, a4: Option<Aggregate>,
                       agg1: int -> Option<Aggregate>, agg2: int -> Option<Aggregate>)
    ensures var recs := Results(a3, a4, agg1, agg2);
      |recs| <= 12 && OrderedBy(recs, Rank)
  {
    ResultsShape(a3, a4, agg1, agg2);
    ThreadCountsAscending();
    NamesDistinct();
    var s3 := RowOf(RectangleSequential, a3);
    var s4 := RowOf(TrapezoidalSequential, a4);
    var p1 := ParallelStage(RectangleOpenMP, TimeOf(a3), agg1);
    var p2 := ParallelStage(TrapezoidalOpenMP, TimeOf(a4), agg2);
    ParallelStageFacts(RectangleOpenMP, TimeOf(a3), agg1);
    ParallelStageFacts(TrapezoidalOpenMP, TimeOf(a4), agg2);
    if a3.Some? {
      SweepOrdered(RectangleOpenMP, ThreadCounts, a3.value.time, agg1, Rank);
    }
    if a4.Some? {
      SweepOrdered(TrapezoidalOpenMP, ThreadCounts, a4.value.time, agg2, Rank);
    }
    assert OrderedBy(s3, Rank) && OrderedBy(s4, Rank);
    OrderedByBlocks(s3, s4, Rank, 0);
    assert forall r: Record :: r in s3 + s4 ==> Rank(r.name) <= 1;
    OrderedByBlocks(s3 + s4, p1, Rank, 1);
    assert forall r: Record :: r in s3 + s4 + p1 ==> Rank(r.name) <= 2;
    OrderedByBlocks(s3 + s4 + p1, p2, Rank, 2);
  }

  /** Membership in `results`, block by block. */
  lemma ResultsMembers(a3: Option<Aggregate>, a4: Option<Aggregate>,
                       agg1: int -> Option<Aggregate>, agg2: int -> Option<Aggregate>)
    ensures forall r :: r in Results(a3, a4, agg1, agg2) <==>
      || (a3.Some? && r == SequentialRecord(RectangleSequential, a3.value))
      || (a4.Some? && r == SequentialRecord(TrapezoidalSequential, a4.value))
      || r in ParallelStage(RectangleOpenMP, TimeOf(a3), agg1)
      || r in ParallelStage(TrapezoidalOpenMP, TimeOf(a4), agg2)
  {
    ResultsShape(a3, a4, agg1, agg2);
  }

  /** Baseline rows: one thread, speedup and efficiency 1 whatever the
      measured time, and the time is that rule's sequential mean. */
  lemma SequentialRowsAreUnit(a3: Option<Aggregate>, a4: Option<Aggregate>,
                              agg1: int -> Option<Aggregate>, agg2: int -> Option<Aggregate>)
    ensures forall r :: r in Results(a3, a4, agg1, agg2) && r.name == RectangleSequential ==>
      && a3.Some? && r.time == a3.value.time
      && r.threads == 1 && r.speedup == Finite(1.0) && r.efficiency == Finite(1.0)
    ensures forall r :: r in Results(a3, a4, agg1, agg2) && r.name == TrapezoidalSequential ==>
      && a4.Some? && r.time == a4.value.time
      && r.threads == 1 && r.speedup == Finite(1.0) && r.efficiency == Finite(1.0)
  {
    ResultsMembers(a3, a4, agg1, agg2);
    NamesDistinct();
    ParallelStageFacts(RectangleOpenMP, TimeOf(a3), agg1);
    ParallelStageFacts(TrapezoidalOpenMP, TimeOf(a4), agg2);
  }

  /** Every method-1 row is measured against the sequential rectangle mean
      and every method-2 row against the sequential trapezoidal mean:
      speedup = baseline / time and efficiency = speedup / threads. */
  lemma ParallelRowsUseOwnBaseline(a3: Option<Aggregate>, a4: Option<Aggregate>,
                                   agg1: int -> Option<Aggregate>, agg2: int -> Option<Aggregate>)
    ensures forall r :: r in Results(a3, a4, agg1, agg2) && r.name == RectangleOpenMP ==>
      && a3.Some? && r.threads in ThreadCounts && agg1(r.threads).Some?
      && r.time == agg1(r.threads).value.time
      && MeasuredAgainst(r, a3.value.time)
    ensures forall r :: r in Results(a3, a4, agg1, agg2) && r.name == TrapezoidalOpenMP ==>
      && a4.Some? && r.threads in ThreadCounts && agg2(r.threads).Some?
      && r.time == agg2(r.threads).value.time
      && MeasuredAgainst(r, a4.value.time)
  {
    ResultsMembers(a3, a4, agg1, agg2);
    NamesDistinct();
    ParallelStageFacts(RectangleOpenMP, TimeOf(a3), agg1);
    ParallelStageFacts(TrapezoidalOpenMP, TimeOf(a4), agg2);
  }

  /** A sequential method has a row exactly when one of its trials
      succeeded. */
  lemma SequentialRowPresentIff(a3: Option<Aggregate>, a4: Option<Aggregate>,
                                agg1: int -> Option<Aggregate>, agg2: int -> Option<Aggregate>)
    ensures (exists r :: r in Results(a3, a4, agg1, agg2) && r.name == RectangleSequential) <==> a3.Some?
    ensures (exists r :: r in Results(a3, a4, agg1, agg2) && r.name == TrapezoidalSequential) <==> a4.Some?
  {
    SequentialRowsAreUnit(a3, a4, agg1, agg2);
    ResultsMembers(a3, a4, agg1, agg2);
    if a3.Some? {
      assert SequentialRecord(RectangleSequential, a3.value) in Results(a3, a4, agg1, agg2);
    }
    if a4.Some? {
      assert SequentialRecord(TrapezoidalSequential, a4.value) in Results(a3, a4, agg1, agg2);
    }
  }

  /** A parallel configuration has a row exactly when its rule's baseline
      exists and one of its own trials succeeded. */
  lemma ParallelRowPresentIff(a3: Option<Aggregate>, a4: Option<Aggregate>,
                              agg1: int -> Option<Aggregate>, agg2: int -> Option<Aggregate>, th: int)
    ensures (exists r :: r in Results(a3, a4, agg1, agg2) && r.name == RectangleOpenMP && r.threads == th)
        <==> a3.Some? && th in ThreadCounts && agg1(th).Some?
    ensures (exists r :: r in Results(a3, a4, agg1, agg2) && r.name == TrapezoidalOpenMP && r.threads == th)
        <==> a4.Some? && th in ThreadCounts && agg2(th).Some?
  {
    ParallelRowsUseOwnBaseline(a3, a4, agg1, agg2);
    ResultsMembers(a3, a4, agg1, agg2);
    ParallelStageFacts(RectangleOpenMP, TimeOf(a3), agg1);
    ParallelStageFacts(TrapezoidalOpenMP, TimeOf(a4), agg2);
  }

  /** Which configurations produce a row: a sequential method exactly when
      one of its trials succeeded; a parallel configuration exactly when its
      rule's baseline exists and one of its own trials succeeded, so a
      failed configuration never stops the ones after it. */
  lemma RowPresentIff(a3: Option<Aggregate>, a4: Option<Aggregate>,
                      agg1: int -> Option<Aggregate>, agg2: int -> Option<Aggregate>, th: int)
    ensures (exists r :: r in Results(a3, a4, agg1, agg2) && r.name == RectangleSequential) <==> a3.Some?
    ensures (exists r :: r in Results(a3, a4, agg1, agg2) && r.name == TrapezoidalSequential) <==> a4.Some?
    ensures (exists r :: r in Results(a3, a4, agg1, agg2) && r.name == RectangleOpenMP && r.threads == th)
        <==> a3.Some? && th in ThreadCounts && agg1(th).Some?
    ensures (exists r :: r in Results(a3, a4, agg1, agg2) && r.name == TrapezoidalOpenMP && r.threads == th)
        <==> a4.Some? && th in ThreadCounts && agg2(th).Some?
  {
    SequentialRowPresentIff(a3, a4, agg1, agg2);
    ParallelRowPresentIff(a3, a4, agg1, agg2, th);
  }

  /** The configurations `run_all_tests` may run: the sequential methods
      with one thread, and a parallel method at a swept thread count when
      its rule's baseline exists. */
  predicate Scheduled(id: int, th: int, rectBaseline: bool, trapBaseline: bool) {
    || ((id == 3 || id == 4) && th == 1)
    || (id == 1 && rectBaseline && th in ThreadCounts)
    || (id == 2 && trapBaseline && th in ThreadCounts)
  }

  /** How many child processes `run_all_tests` starts, and that the first
      `2 * runs` are the sequential methods with one thread. */
  lemma CallsCount(env: Env, t: Tester, runs: int, a3: Option<Aggregate>, a4: Option<Aggregate>)
    ensures var calls := Calls(env, t, runs, a3, a4);
      var n := RunCount(runs);
      && |calls| == 2 * n + (if a3.Some? then 5 * n else 0) + (if a4.Some? then 5 * n else 0)
      && calls[..n] == ConfigCalls(Argv(env, t, 3, 1), runs)
      && calls[n..2 * n] == ConfigCalls(Argv(env, t, 4, 1), runs)
  {
    ScanSequentialRows(a3, a4);
    var n := RunCount(runs);
    var c3 := ConfigCalls(Argv(env, t, 3, 1), runs);
    var c4 := ConfigCalls(Argv(env, t, 4, 1), runs);
    var q1 := ParallelCalls(env, t, runs, 1, TimeOf(a3));
    var q2 := ParallelCalls(env, t, runs, 2, TimeOf(a4));
    var calls := Calls(env, t, runs, a3, a4);
    assert |ThreadCounts| == 5;
    assert |q1| == (if a3.Some? then 5 * n else 0);
    assert |q2| == (if a4.Some? then 5 * n else 0);
    assert calls == c3 + c4 + (q1 + q2);
    assert |c3| == n && |c4| == n;
    Layout(c3, c4, q1 + q2);
  }

  /** Every child process `run_all_tests` starts is one of its scheduled
      configurations: no parallel method runs without its baseline, and no
      sequential method with more than one thread. */
  lemma CallsScheduled(env: Env, t: Tester, runs: int, a3: Option<Aggregate>, a4: Option<Aggregate>)
    ensures forall c :: c in Calls(env, t, runs, a3, a4) ==>
        && c.run < RunCount(runs)
        && exists id, th :: c.argv == Argv(env, t, id, th) && Scheduled(id, th, a3.Some?, a4.Some?)
    ensures forall id, th, k :: Scheduled(id, th, a3.Some?, a4.Some?) && 0 <= k < RunCount(runs) ==>
        Invocation(Argv(env, t, id, th), k) in Calls(env, t, runs, a3, a4)
  {
    ScanSequentialRows(a3, a4);
    var c3 := ConfigCalls(Argv(env, t, 3, 1), runs);
    var c4 := ConfigCalls(Argv(env, t, 4, 1), runs);
    var q1 := ParallelCalls(env, t, runs, 1, TimeOf(a3));
    var q2 := ParallelCalls(env, t, runs, 2, TimeOf(a4));
    var calls := Calls(env, t, runs, a3, a4);
    assert calls == c3 + c4 + q1 + q2;
    SweepCallsFrom(th => Argv(env, t, 1, th), ThreadCounts, runs);
    SweepCallsFrom(th => Argv(env, t, 2, th), ThreadCounts, runs);
    forall c | c in calls
      ensures c.run < RunCount(runs)
      ensures exists id, th :: c.argv == Argv(env, t, id, th) && Scheduled(id, th, a3.Some?, a4.Some?)
    {
      if c in c3 {
        var k :| 0 <= k < |c3| && c3[k] == c;
        assert c.argv == Argv(env, t, 3, 1) && Scheduled(3, 1, a3.Some?, a4.Some?);
      } else if c in c4 {
        var k :| 0 <= k < |c4| && c4[k] == c;
        assert c.argv == Argv(env, t, 4, 1) && Scheduled(4, 1, a3.Some?, a4.Some?);
      } else if c in q1 {
        var th :| th in ThreadCounts && c.argv == Argv(env, t, 1, th);
        assert Scheduled(1, th, a3.Some?, a4.Some?);
      } else {
        var th :| th in ThreadCounts && c.argv == Argv(env, t, 2, th);
        assert Scheduled(2, th, a3.Some?, a4.Some?);
      }
    }
    SweepCallsCover(th => Argv(env, t, 1, th), ThreadCounts, runs);
    SweepCallsCover(th => Argv(env, t, 2, th), ThreadCounts, runs);
    forall id, th, k | Scheduled(id, th, a3.Some?, a4.Some?) && 0 <= k < RunCount(runs)
      ensures Invocation(Argv(env, t, id, th), k) in calls
    {
      var c := Invocation(Argv(env, t, id, th), k);
      if id == 3 {
        assert c3[k] == c;
      } else if id == 4 {
        assert c4[k] == c;
      } else if id == 1 {
        assert q1 == SweepCalls(th => Argv(env, t, 1, th), ThreadCounts, runs);
        assert (th => Argv(env, t, 1, th))(th) == Argv(env, t, 1, th);
        assert c in q1;
      } else {
        assert q2 == SweepCalls(th => Argv(env, t, 2, th), ThreadCounts, runs);
        assert (th => Argv(env, t, 2, th))(th) == Argv(env, t, 2, th);
        assert c in q2;
      }
    }
  }
}

=== FILE: matrix.dfy ===
/** The matrix-multiplication tester: kernel methods 1 (blocked) and 2
    (standard) with OpenMP and 3 (sequential), a three-field result line
    carrying only the time, one sequential baseline shared by both parallel
    methods, and an early return when that baseline is missing. */
module Matrix {
  import opened Wrappers
  import opened Text
  import opened Stats
  import opened Harness

  const Executable: string := "./blocked-matrix-multiplication"
  const ThreadCounts: seq<int> := [1, 2, 4, 8, 16]
  /** `method,threads,time` */
  const FieldCount: nat := 3

  const BlockedName: string := "Blocked"
  const StandardName: string := "Standard"
  const SequentialName: string := "Sequential"

  /** Matrix order N and block size passed to every kernel call. */
  datatype Tester = Tester(matrixSize: int, blockSize: int)

  /** Why the constructor raises: `%` by zero, or the `ValueError` for a
      matrix size that is not a multiple of the block size. */
  datatype InitError = ZeroBlockSize | NotDivisible(matrixSize: int, blockSize: int)

  /** Python's `//` on integers: the quotient rounded towards minus
      infinity. */
  function PyDiv(a: int, b: int): int
    requires b != 0
  {
    if b < 0 && a % b != 0 then a / b - 1 else a / b
  }

  /** Python's `%` on integers: the remainder takes the divisor's sign and
      completes `divmod`, a == b * (a // b) + a % b. */
  function PyMod(a: int, b: int): (r: int)
    requires b != 0
    ensures b > 0 ==> 0 <= r < b
    ensures b < 0 ==> b < r <= 0
    ensures r == 0 <==> a % b == 0
    ensures a == b * PyDiv(a, b) + r
  {
    var e := a % b;
    assert a == b * (a / b) + e;
    if b < 0 && e != 0 then
      assert b * (a / b - 1) == b * (a / b) - b;
      e + b
    else
      e
  }

  /** `MatrixMultiplicationTester(matrix_size, block_size)`. */
  function NewTester(matrixSize: int, blockSize: int): (r: Result<Tester, InitError>)
    ensures blockSize == 0 ==> r == Failure(ZeroBlockSize)
    ensures blockSize != 0 && matrixSize % blockSize == 0 ==> r == Success(Tester(matrixSize, blockSize))
    ensures blockSize != 0 && matrixSize % blockSize != 0 ==> r == Failure(NotDivisible(matrixSize, blockSize))
    ensures r.Success? ==> matrixSize == (matrixSize / blockSize) * blockSize
  {
    if blockSize == 0 then Failure(ZeroBlockSize)
    else if PyMod(matrixSize, blockSize) != 0 then Failure(NotDivisible(matrixSize, blockSize))
    else Success(Tester(matrixSize, blockSize))
  }

  const DefaultTester: Tester := Tester(512, 64)

  lemma DefaultsAccepted()
    ensures NewTester(512, 64) == Success(DefaultTester)
    ensures NewTester(500, 64) == Failure(NotDivisible(500, 64))
  {
  }

  predicate ValidMethod(id: int) {
    1 <= id <= 3
  }

  /** The thread count actually passed to the kernel. */
  function ActualThreads(id: int, threads: int): int {
    if id == 3 then 1 else threads
  }

  /** `[exe, str(N), str(block), str(method), str(actual_threads)]` */
  function Argv(t: Tester, id: int, threads: int): seq<string> {
    [Executable, IntToString(t.matrixSize), IntToString(t.blockSize),
     IntToString(id), IntToString(ActualThreads(id, threads))]
  }

  /** The argument vector has the kernel's five-word batch shape and the
      kernel reads back sizes, method id and, for the sequential method, one
      thread whatever was asked for. */
  lemma ArgvCarriesConfiguration(t: Tester, id: int, threads: int)
    ensures var argv := Argv(t, id, threads);
      && |argv| == 5 && argv[0] == Executable
      && ParseInt(argv[1]) == Some(t.matrixSize)
      && ParseInt(argv[2]) == Some(t.blockSize)
      && ParseInt(argv[3]) == Some(id)
      && ParseInt(argv[4]) == Some(if id == 3 then 1 else threads)
  {
    var argv := Argv(t, id, threads);
    assert argv[1] == IntToString(t.matrixSize) && argv[2] == IntToString(t.blockSize);
    assert argv[3] == IntToString(id) && argv[4] == IntToString(ActualThreads(id, threads));
    IntToStringRoundTrip(t.matrixSize);
    IntToStringRoundTrip(t.blockSize);
    IntToStringRoundTrip(id);
    IntToStringRoundTrip(ActualThreads(id, threads));
  }

  /** Outcome of `run_single_test`: a time or `None`. */
  datatype Trial = Timed(time: real) | Dropped(why: Failure)

  function RunSingleTest(env: Env, t: Tester, id: int, threads: int, run: nat): (r: Trial)
    requires ValidMethod(id)
    ensures var o := env.run(Invocation(Argv(t, id, threads), run));
      && (o.TimedOut? ==> r == Dropped(Timeout))
      && (o.LaunchFailed? ==> r == Dropped(LaunchError))
      && (o.Completed? && o.exitCode != 0 ==> r == Dropped(NonZeroExit(o.exitCode)))
      && (r.Timed? ==>
            && o.Completed? && o.exitCode == 0
            && Fields(o, FieldCount).Success?
            && env.parseNum(Fields(o, FieldCount).value[2]) == Some(r.time))
      && (Fields(o, FieldCount).Success? && env.parseNum(Fields(o, FieldCount).value[2]).Some? ==> r.Timed?)
  {
    var o := env.run(Invocation(Argv(t, id, threads), run));
    match Fields(o, FieldCount)
    case Failure(why) => Dropped(why)
    case Success(parts) =>
      match env.parseNum(parts[2])
      case Some(time) => Timed(time)
      case None => Dropped(NotANumber)
  }

  /** The sequential method runs on one thread: its trials do not depend on
      the thread count requested. */
  lemma SequentialIgnoresThreads(env: Env, t: Tester, a: int, b: int, run: nat)
    ensures Argv(t, 3, a) == Argv(t, 3, b)
    ensures RunSingleTest(env, t, 3, a, run) == RunSingleTest(env, t, 3, b, run)
  {
  }

  /** Round trip with the kernel's batch output (a blank line, then
      `method,threads,time`): the trial is timed exactly when the time
      converts, and with that time. */
  lemma TrialOfKernelLine(env: Env, t: Tester, id: int, threads: int, run: nat,
                          m: string, th: string, time: string)
    requires ValidMethod(id)
    requires WellFormedFields([m, th, time])
    requires env.run(Invocation(Argv(t, id, threads), run))
          == Completed(0, "\n" + Join([m, th, time], ',') + "\n")
    ensures var r := RunSingleTest(env, t, id, threads, run);
      && (r.Timed? <==> env.parseNum(time).Some?)
      && (r.Timed? ==> r.time == env.parseNum(time).value)
  {
    FieldsOfKernelLine([m, th, time], FieldCount);
  }

  /** A line with any other number of fields, such as the integration
      kernel's four, is dropped. */
  lemma WrongShapeDropped(env: Env, t: Tester, id: int, threads: int, run: nat, fields: seq<string>)
    requires ValidMethod(id)
    requires WellFormedFields(fields) && |fields| != FieldCount
    requires env.run(Invocation(Argv(t, id, threads), run))
          == Completed(0, "\n" + Join(fields, ',') + "\n")
    ensures RunSingleTest(env, t, id, threads, run) == Dropped(WrongFieldCount(|fields|))
  {
    FieldsOfKernelLine(fields, FieldCount);
  }

  /** The `runs` trials of one configuration, in order. */
  function Trials(env: Env, t: Tester, id: int, threads: int, runs: int): (ts: seq<Trial>)
    requires ValidMethod(id)
    ensures |ts| == RunCount(runs)
    ensures forall k :: 0 <= k < |ts| ==> ts[k] == RunSingleTest(env, t, id, threads, k)
  {
    seq(RunCount(runs), k requires 0 <= k => RunSingleTest(env, t, id, threads, k))
  }

  function AsSample(tr: Trial): Option<real> {
    if tr.Timed? then Some(tr.time) else None
  }

  /** Times of the timed trials, in trial order. */
  function Successes(ts: seq<Trial>): (ok: seq<real>)
    ensures |ok| <= |ts|
    ensures ok == [] <==> forall k :: 0 <= k < |ts| ==> ts[k].Dropped?
    ensures forall k :: 0 <= k < |ok| ==> Timed(ok[k]) in ts
  {
    var samples := seq(|ts|, k requires 0 <= k < |ts| => AsSample(ts[k]));
    assert forall k :: 0 <= k < |ts| ==> (samples[k].None? <==> ts[k].Dropped?);
    var ok := Keep(samples);
    assert forall k :: 0 <= k < |ok| ==> Timed(ok[k]) in ts by {
      forall k | 0 <= k < |ok| ensures Timed(ok[k]) in ts {
        var i :| 0 <= i < |samples| && samples[i] == Some(ok[k]);
        assert ts[i] == Timed(ok[k]);
      }
    }
    ok
  }

  /** Mean time over the timed trials of a list of trials; `None` when
      every trial was dropped. */
  function Summary(ts: seq<Trial>): (a: Option<Aggregate>)
    ensures a.None? <==> forall k :: 0 <= k < |ts| ==> ts[k].Dropped?
    ensures a.Some? ==> a.value.area.None?
  {
    var ok := Successes(ts);
    if ok == [] then None else Some(Aggregate(Mean(ok), None))
  }

  /** A dropped trial does not move the mean: `np.mean` sees only the kept
      times. */
  lemma SummaryIgnoresDropped(before: seq<Trial>, why: Failure, after: seq<Trial>)
    ensures Summary(before + [Dropped(why)] + after) == Summary(before + after)
  {
    var f := (ts: seq<Trial>) => seq(|ts|, k requires 0 <= k < |ts| => AsSample(ts[k]));
    assert f(before + [Dropped(why)] + after) == f(before) + [None] + f(after);
    assert f(before + after) == f(before) + f(after);
    DroppedTrialIsInvisible(f(before), f(after));
  }

  /** With no trial dropped the aggregate is the plain mean of the trial
      times, in trial order. */
  lemma SummaryOfTimed(ts: seq<Trial>)
    requires |ts| > 0 && forall k :: 0 <= k < |ts| ==> ts[k].Timed?
    ensures Summary(ts) == Some(Aggregate(Mean(seq(|ts|, k requires 0 <= k < |ts| => ts[k].time)), None))
  {
    var samples := seq(|ts|, k requires 0 <= k < |ts| => AsSample(ts[k]));
    KeepAllSome(samples);
    assert Successes(ts) == Keep(samples);
    assert Keep(samples) == seq(|ts|, k requires 0 <= k < |ts| => ts[k].time);
  }

  /** The aggregate of one configuration over its `runs` trials. */
  function Aggregated(env: Env, t: Tester, id: int, threads: int, runs: int): (a: Option<Aggregate>)
    requires ValidMethod(id)
    ensures var ts := Trials(env, t, id, threads, runs);
      a.None? <==> forall k :: 0 <= k < |ts| ==> ts[k].Dropped?
    ensures a.Some? ==> a.value.area.None?
  {
    Summary(Trials(env, t, id, threads, runs))
  }

  /** The mean time lies within any range that holds every timed trial:
      the mean is taken over the successful trials only. */
  lemma SummaryWithinObserved(ts: seq<Trial>, lo: real, hi: real)
    requires forall k :: 0 <= k < |ts| ==> ts[k].Timed? ==> lo <= ts[k].time <= hi
    ensures var a := Summary(ts);
      a.Some? ==> lo <= a.value.time <= hi
  {
    var ok := Successes(ts);
    if ok != [] {
      forall k | 0 <= k < |ok| ensures lo <= ok[k] <= hi {
        var i :| 0 <= i < |ts| && ts[i] == Timed(ok[k]);
      }
      MeanBounds(ok, lo, hi);
    }
  }

  /** The same bound for one configuration of the tester. */
  lemma AggregateWithinObserved(env: Env, t: Tester, id: int, threads: int, runs: int, lo: real, hi: real)
    requires ValidMethod(id)
    requires var ts := Trials(env, t, id, threads, runs);
      forall k :: 0 <= k < |ts| ==> ts[k].Timed? ==> lo <= ts[k].time <= hi
    ensures var a := Aggregated(env, t, id, threads, runs);
      a.Some? ==> lo <= a.value.time <= hi
  {
    SummaryWithinObserved(Trials(env, t, id, threads, runs), lo, hi);
  }

  /** The `results` list `run_all_tests` builds, given the aggregate of the
      sequential configuration and of every parallel configuration: nothing
      at all without a sequential mean (`return`), otherwise the sequential
      row, then Blocked and Standard over the thread counts, both measured
      against that one sequential mean. */
  function Results(seqAgg: Option<Aggregate>, agg1: int -> Option<Aggregate>, agg2: int -> Option<Aggregate>): seq<Record>
  {
    match seqAgg
    case None => []
    case Some(s) =>
      [SequentialRecord(SequentialName, s)]
        + Sweep(BlockedName, ThreadCounts, s.time, agg1)
        + Sweep(StandardName, ThreadCounts, s.time, agg2)
  }

  /** The child processes of `run_all_tests`, in order, given the outcome of
      the sequential configuration. */
  function Calls(t: Tester, runs: int, seqAgg: Option<Aggregate>): seq<Invocation> {
    ConfigCalls(Argv(t, 3, 1), runs)
      + (if seqAgg.None? then []
         else SweepCalls(th => Argv(t, 1, th), ThreadCounts, runs)
              + SweepCalls(th => Argv(t, 2, th), ThreadCounts, runs))
  }

  /** `run_all_tests(runs)`: results are reset, the sequential baseline
      measured with one thread, then Blocked and Standard swept over the
      thread counts. */
  function RunAllTests(env: Env, t: Tester, runs: int): Report {
    var s := Aggregated(env, t, 3, 1, runs);
    Report(
      Results(s, th => Aggregated(env, t, 1, th, runs), th => Aggregated(env, t, 2, th, runs)),
      Calls(t, runs, s))
  }

  /** The whole of `run_all_tests`: rows in output order, one per method
      and thread count at most; the sequential configuration runs first and
      the sweeps run only when it produced a baseline; every parallel row is
      measured against that one sequential time. */
  lemma RunAllTestsReport(env: Env, t: Tester, runs: int)
    ensures var rep := RunAllTests(env, t, runs);
      var s := Aggregated(env, t, 3, 1, runs);
      var n := RunCount(runs);
      && |rep.records| <= 11 && OrderedBy(rep.records, Rank)
      && (forall r :: r in rep.records ==>
            r.name == SequentialName || r.name == BlockedName || r.name == StandardName)
      && |rep.calls| == n + (if s.Some? then 10 * n else 0)
      && rep.calls[..n] == ConfigCalls(Argv(t, 3, 1), runs)
      && (forall r :: r in rep.records && r.name == BlockedName ==>
            && TimeOf(Aggregated(env, t, 1, r.threads, runs)) == Some(r.time)
            && s.Some? && MeasuredAgainst(r, s.value.time))
      && (forall r :: r in rep.records && r.name == StandardName ==>
            && TimeOf(Aggregated(env, t, 2, r.threads, runs)) == Some(r.time)
            && s.Some? && MeasuredAgainst(r, s.value.time))
      && (forall c :: c in rep.calls ==>
            c.run < n && exists id, th :: c.argv == Argv(t, id, th) && Scheduled(id, th, s.Some?))
      && (forall id, th, k :: Scheduled(id, th, s.Some?) && 0 <= k < n ==>
            Invocation(Argv(t, id, th), k) in rep.calls)
  {
    var s := Aggregated(env, t, 3, 1, runs);
    var agg1 := th => Aggregated(env, t, 1, th, runs);
    var agg2 := th => Aggregated(env, t, 2, th, runs);
    var rep := RunAllTests(env, t, runs);
    assert rep.records == Results(s, agg1, agg2);
    ResultsOrdered(s, agg1, agg2);
    CallsCount(t, runs, s);
    CallsScheduled(t, runs, s);
    ParallelRowsShareBaseline(s, agg1, agg2);
  }

  /** Position of a method in the output order. */
  function Rank(name: string): int {
    if name == SequentialName then 0
    else if name == BlockedName then 1
    else if name == StandardName then 2
    else 3
  }

  lemma NamesDistinct()
    ensures |SequentialName| == 10 && |BlockedName| == 7 && |StandardName| == 8
    ensures Rank(SequentialName) == 0 && Rank(BlockedName) == 1 && Rank(StandardName) == 2
  {
  }

  lemma ThreadCountsAscending()
    ensures AllPositive(ThreadCounts) && StrictlyIncreasing(ThreadCounts)
  {
  }

  /** Without a successful sequential trial the run ends empty-handed
      right after the sequential trials: no parallel configuration is
      attempted. */
  lemma EarlyAbort(env: Env, t: Tester, runs: int)
    requires Aggregated(env, t, 3, 1, runs).None?
    ensures RunAllTests(env, t, runs) == Report([], ConfigCalls(Argv(t, 3, 1), runs))
  {
    assert ConfigCalls(Argv(t, 3, 1), runs) + [] == ConfigCalls(Argv(t, 3, 1), runs);
  }

  /** `results` holds the sequential row and the two sweeps, and nothing
      else; all of it only once a sequential mean exists. */
  lemma ResultsMembers(seqAgg: Option<Aggregate>, agg1: int -> Option<Aggregate>, agg2: int -> Option<Aggregate>)
    ensures forall r :: r in Results(seqAgg, agg1, agg2) <==>
      && seqAgg.Some?
      && (|| r == SequentialRecord(SequentialName, seqAgg.value)
          || r in Sweep(BlockedName, ThreadCounts, seqAgg.value.time, agg1)
          || r in Sweep(StandardName, ThreadCounts, seqAgg.value.time, agg2))
  {
    if seqAgg.Some? {
      var b := seqAgg.value.time;
      var s0 := SequentialRecord(SequentialName, seqAgg.value);
      assert Results(seqAgg, agg1, agg2) == [s0] + Sweep(BlockedName, ThreadCounts, b, agg1) + Sweep(StandardName, ThreadCounts, b, agg2);
    }
  }

  /** Output order: Sequential, then Blocked by ascending threads, then
      Standard by ascending threads; at most 11 rows, and no row under any
      other name. */
  lemma ResultsOrdered(seqAgg: Option<Aggregate>, agg1: int -> Option<Aggregate>, agg2: int -> Option<Aggregate>)
    ensures var recs := Results(seqAgg, agg1, agg2);
      |recs| <= 11 && OrderedBy(recs, Rank)
    ensures forall r :: r in Results(seqAgg, agg1, agg2) ==>
      r.name == SequentialName || r.name == BlockedName || r.name == StandardName
  {
    ResultsMembers(seqAgg, agg1, agg2);
    if seqAgg.Some? {
      ThreadCountsAscending();
      NamesDistinct();
      var b := seqAgg.value.time;
      var s: seq<Record> := [SequentialRecord(SequentialName, seqAgg.value)];
      var p1 := Sweep(BlockedName, ThreadCounts, b, agg1);
      var p2 := Sweep(StandardName, ThreadCounts, b, agg2);
      SweepOrdered(BlockedName, ThreadCounts, b, agg1, Rank);
      SweepOrdered(StandardName, ThreadCounts, b, agg2, Rank);
      assert forall r :: r in p1 ==> r.name == BlockedName;
      assert forall r :: r in p2 ==> r.name == StandardName;
      OrderedByBlocks(s, p1, Rank, 0);
      assert forall r: Record :: r in s + p1 ==> Rank(r.name) <= 1;
      OrderedByBlocks(s + p1, p2, Rank, 1);
    }
  }

  /** The one sequential row: one thread, speedup and efficiency 1 whatever
      the measured time. */
  lemma SequentialRowIsUnit(seqAgg: Option<Aggregate>, agg1: int -> Option<Aggregate>, agg2: int -> Option<Aggregate>)
    ensures forall r :: r in Results(seqAgg, agg1, agg2) && r.name == SequentialName ==>
      && seqAgg.Some? && r.time == seqAgg.value.time
      && r.threads == 1 && r.speedup == Finite(1.0) && r.efficiency == Finite(1.0)
  {
    NamesDistinct();
  }

  /** Blocked and Standard rows alike are measured against the same
      sequential mean: speedup = baseline / time and efficiency =
      speedup / threads. */
  lemma ParallelRowsShareBaseline(seqAgg: Option<Aggregate>, agg1: int -> Option<Aggregate>, agg2: int -> Option<Aggregate>)
    ensures forall r :: r in Results(seqAgg, agg1, agg2) && r.name == BlockedName ==>
      && seqAgg.Some? && r.threads in ThreadCounts && agg1(r.threads).Some?
      && r.time == agg1(r.threads).value.time
      && MeasuredAgainst(r, seqAgg.value.time)
    ensures forall r :: r in Results(seqAgg, agg1, agg2) && r.name == StandardName ==>
      && seqAgg.Some? && r.threads in ThreadCounts && agg2(r.threads).Some?
      && r.time == agg2(r.threads).value.time
      && MeasuredAgainst(r, seqAgg.value.time)
  {
    NamesDistinct();
    ThreadCountsAscending();
  }

  /** Which configurations produce a row: the sequential one exactly when
      one of its trials succeeded; a parallel one exactly when the
      sequential mean exists and one of its own trials succeeded, so a
      failed configuration never stops the ones after it. */
  lemma RowPresentIff(seqAgg: Option<Aggregate>, agg1: int -> Option<Aggregate>, agg2: int -> Option<Aggregate>, th: int)
    ensures (exists r :: r in Results(seqAgg, agg1, agg2) && r.name == SequentialName) <==> seqAgg.Some?
    ensures (exists r :: r in Results(seqAgg, agg1, agg2) && r.name == BlockedName && r.threads == th)
        <==> seqAgg.Some? && th in ThreadCounts && agg1(th).Some?
    ensures (exists r :: r in Results(seqAgg, agg1, agg2) && r.name == StandardName && r.threads == th)
        <==> seqAgg.Some? && th in ThreadCounts && agg2(th).Some?
  {
    NamesDistinct();
    ThreadCountsAscending();
    if seqAgg.Some? {
      var b := seqAgg.value.time;
      var recs := Results(seqAgg, agg1, agg2);
      var s0 := SequentialRecord(SequentialName, seqAgg.value);
      var p1 := Sweep(BlockedName, ThreadCounts, b, agg1);
      var p2 := Sweep(StandardName, ThreadCounts, b, agg2);
      assert recs == [s0] + p1 + p2;
      assert s0 in recs;
      SweepFacts(BlockedName, ThreadCounts, b, agg1);
      SweepFacts(StandardName, ThreadCounts, b, agg2);
    }
  }

  /** The configurations `run_all_tests` may run: the sequential method
      with one thread, and a parallel method at a swept thread count once a
      sequential mean exists. */
  predicate Scheduled(id: int, th: int, baseline: bool) {
    || (id == 3 && th == 1)
    || ((id == 1 || id == 2) && baseline && th in ThreadCounts)
  }

  /** How many child processes `run_all_tests` starts: `runs` sequential
      ones, then `runs` per thread count for both parallel methods only when
      the sequential mean exists. */
  lemma CallsCount(t: Tester, runs: int, seqAgg: Option<Aggregate>)
    ensures var calls := Calls(t, runs, seqAgg);
      var n := RunCount(runs);
      && |calls| == n + (if seqAgg.Some? then 10 * n else 0)
      && calls[..n] == ConfigCalls(Argv(t, 3, 1), runs)
  {
  }

  /** Every child process `run_all_tests` starts is a scheduled
      configuration: the sequential method with one thread, or a parallel
      method at a swept thread count after a sequential mean was found. */
  lemma CallsScheduled(t: Tester, runs: int, seqAgg: Option<Aggregate>)
    ensures forall c :: c in Calls(t, runs, seqAgg) ==>
      && c.run < RunCount(runs)
      && exists id, th :: c.argv == Argv(t, id, th) && Scheduled(id, th, seqAgg.Some?)
    ensures forall id, th, k :: Scheduled(id, th, seqAgg.Some?) && 0 <= k < RunCount(runs) ==>
      Invocation(Argv(t, id, th), k) in Calls(t, runs, seqAgg)
  {
    var c3 := ConfigCalls(Argv(t, 3, 1), runs);
    var q1 := SweepCalls(th => Argv(t, 1, th), ThreadCounts, runs);
    var q2 := SweepCalls(th => Argv(t, 2, th), ThreadCounts, runs);
    SweepCallsFrom(th => Argv(t, 1, th), ThreadCounts, runs);
    SweepCallsFrom(th => Argv(t, 2, th), ThreadCounts, runs);
    var calls := Calls(t, runs, seqAgg);
    forall c | c in calls
      ensures c.run < RunCount(runs)
      ensures exists id, th :: c.argv == Argv(t, id, th) && Scheduled(id, th, seqAgg.Some?)
    {
      if c in c3 {
        var k :| 0 <= k < |c3| && c3[k] == c;
        assert c.argv == Argv(t, 3, 1) && Scheduled(3, 1, seqAgg.Some?);
      } else {
        assert seqAgg.Some? && calls == c3 + (q1 + q2);
        if c in q1 {
          var th :| th in ThreadCounts && c.argv == Argv(t, 1, th);
          assert Scheduled(1, th, seqAgg.Some?);
        } else {
          var th :| th in ThreadCounts && c.argv == Argv(t, 2, th);
          assert Scheduled(2, th, seqAgg.Some?);
        }
      }
    }
    SweepCallsCover(th => Argv(t, 1, th), ThreadCounts, runs);
    SweepCallsCover(th => Argv(t, 2, th), ThreadCounts, runs);
    forall id, th, k | Scheduled(id, th, seqAgg.Some?) && 0 <= k < RunCount(runs)
      ensures Invocation(Argv(t, id, th), k) in calls
    {
      var c := Invocation(Argv(t, id, th), k);
      if id == 3 {
        assert c3[k] == c;
      } else {
        assert calls == c3 + (q1 + q2);
        if id == 1 {
          assert (th => Argv(t, 1, th))(th) == Argv(t, 1, th);
          assert c in q1;
        } else {
          assert (th => Argv(t, 2, th))(th) == Argv(t, 2, th);
          assert c in q2;
        }
      }
    }
  }
}

=== FILE: stats.dfy ===
/** `np.mean` over the surviving trial measurements, with exact reals. */
module Stats {

  function Sum(xs: seq<real>): real
  {
    if xs == [] then 0.0 else xs[0] + Sum(xs[1..])
  }

  /** Position of a smallest member of a non-empty sample. */
  function MinIndex(xs: seq<real>): (i: nat)
    requires |xs| > 0
    ensures i < |xs| && forall k :: 0 <= k < |xs| ==> xs[i] <= xs[k]
  {
    if |xs| == 1 then 0
    else
      var j := 1 + MinIndex(xs[1..]);
      assert forall k :: 1 <= k < |xs| ==> xs[k] == xs[1..][k - 1];
      if xs[0] <= xs[j] then 0 else j
  }

  /** Position of a largest member of a non-empty sample. */
  function MaxIndex(xs: seq<real>): (i: nat)
    requires |xs| > 0
    ensures i < |xs| && forall k :: 0 <= k < |xs| ==> xs[k] <= xs[i]
  {
    if |xs| == 1 then 0
    else
      var j := 1 + MaxIndex(xs[1..]);
      assert forall k :: 1 <= k < |xs| ==> xs[k] == xs[1..][k - 1];
      if xs[j] <= xs[0] then 0 else j
  }

  /** Arithmetic mean (`np.mean`); only ever taken over a non-empty sample.
      It lies between the smallest and the largest member. */
  function Mean(xs: seq<real>): (m: real)
    requires |xs| > 0
    ensures xs[MinIndex(xs)] <= m <= xs[MaxIndex(xs)]
  {
    var n := |xs| as real;
    SumBounds(xs, xs[MinIndex(xs)], xs[MaxIndex(xs)]);
    QuotientBounds(Sum(xs), n, xs[MinIndex(xs)], xs[MaxIndex(xs)]);
    Sum(xs) / n
  }

  /** Dividing a total that lies between `lo * n` and `hi * n` by `n`. */
  lemma QuotientBounds(total: real, n: real, lo: real, hi: real)
    requires n > 0.0 && lo * n <= total <= hi * n
    ensures lo <= total / n <= hi
  {
    assert total / n * n == total;
  }

  lemma {:induction false} SumBounds(xs: seq<real>, lo: real, hi: real)
    requires forall k :: 0 <= k < |xs| ==> lo <= xs[k] <= hi
    ensures lo * |xs| as real <= Sum(xs) <= hi * |xs| as real
    decreases |xs|
  {
    if xs != [] {
      SumBounds(xs[1..], lo, hi);
    }
  }

  /** The mean of a sample lies between any lower and upper bound of its
      members: averaging never invents a time outside the observed range. */
  lemma MeanBounds(xs: seq<real>, lo: real, hi: real)
    requires |xs| > 0
    requires forall k :: 0 <= k < |xs| ==> lo <= xs[k] <= hi
    ensures lo <= Mean(xs) <= hi
  {
    SumBounds(xs, lo, hi);
    QuotientBounds(Sum(xs), |xs| as real, lo, hi);
  }

  /** A sample of identical values averages to that value. */
  lemma MeanOfConstant(xs: seq<real>, c: real)
    requires |xs| > 0
    requires forall k :: 0 <= k < |xs| ==> xs[k] == c
    ensures Mean(xs) == c
  {
    MeanBounds(xs, c, c);
  }
}

=== FILE: text.dfy ===
/** The slice of Python's `str` behaviour the testers rely on: `strip()`,
    `split(',')` and `str()` of an integer. */
module Text {
  import opened Wrappers

  /** Python's `str.isspace` for one character (Unicode White_Space as
      CPython defines it: ASCII separators and the Zs/B/S code points). */
  predicate IsSpace(c: char) {
    var n := c as int;
    || n == 0x20 || (0x09 <= n <= 0x0D) || (0x1C <= n <= 0x1F)
    || n == 0x85 || n == 0xA0 || n == 0x1680 || (0x2000 <= n <= 0x200A)
    || n == 0x2028 || n == 0x2029 || n == 0x202F || n == 0x205F || n == 0x3000
  }

  predicate AllSpace(s: string) {
    forall i :: 0 <= i < |s| ==> IsSpace(s[i])
  }

  /** No whitespace at either end: what `strip()` guarantees of its result. */
  predicate Trimmed(s: string) {
    s == [] || (!IsSpace(s[0]) && !IsSpace(s[|s| - 1]))
  }

  /** `lstrip()`: drops the longest all-space prefix. */
  function TrimLeft(s: string): (r: string)
    ensures |r| <= |s| && r == s[|s| - |r|..]
    ensures AllSpace(s[..|s| - |r|])
    ensures r == [] || !IsSpace(r[0])
  {
    if s != [] && IsSpace(s[0]) then TrimLeft(s[1..]) else s
  }

  /** `rstrip()`: drops the longest all-space suffix. */
  function TrimRight(s: string): (r: string)
    ensures |r| <= |s| && r == s[..|r|]
    ensures AllSpace(s[|r|..])
    ensures r == [] || !IsSpace(r[|r| - 1])
  {
    if s != [] && IsSpace(s[|s| - 1]) then
      var r := TrimRight(s[..|s| - 1]);
      assert s[|r|..] == s[..|s| - 1][|r|..] + [s[|s| - 1]];
      r
    else s
  }

  /** Python's `str.strip()` with no argument. */
  function Strip(s: string): (r: string)
    ensures Trimmed(r)
  {
    var l := TrimLeft(s);
    var r := TrimRight(l);
    assert r != [] ==> r[0] == l[0];
    r
  }

  /** What `strip()` keeps is one contiguous piece of its input, and what
      it drops on either side is all whitespace. */
  lemma StripSlice(s: string) returns (i: nat)
    ensures i + |Strip(s)| <= |s| && s[i..i + |Strip(s)|] == Strip(s)
    ensures AllSpace(s[..i]) && AllSpace(s[i + |Strip(s)|..])
  {
    var l := TrimLeft(s);
    i := |s| - |l|;
    FrameSlices(s, l, TrimRight(l), i);
  }

  /** A piece cut from the front of a suffix is a slice of the whole. */
  lemma FrameSlices(s: string, l: string, r: string, i: nat)
    requires i <= |s| && l == s[i..] && AllSpace(s[..i])
    requires |r| <= |l| && r == l[..|r|] && AllSpace(l[|r|..])
    ensures i + |r| <= |s| && s[i..i + |r|] == r
    ensures AllSpace(s[..i]) && AllSpace(s[i + |r|..])
  {
    assert s[i + |r|..] == l[|r|..];
  }

  lemma {:induction false} TrimLeftSpacePrefix(w: string, core: string)
    requires AllSpace(w)
    requires core == [] || !IsSpace(core[0])
    ensures TrimLeft(w + core) == core
    decreases |w|
  {
    if w == [] {
      assert w + core == core;
    } else {
      assert (w + core)[1..] == w[1..] + core;
      TrimLeftSpacePrefix(w[1..], core);
    }
  }

  lemma {:induction false} TrimRightSpaceSuffix(core: string, w: string)
    requires AllSpace(w)
    requires core == [] || !IsSpace(core[|core| - 1])
    ensures TrimRight(core + w) == core
    decreases |w|
  {
    if w == [] {
      assert core + w == core;
    } else {
      assert (core + w)[..|core + w| - 1] == core + w[..|w| - 1];
      TrimRightSpaceSuffix(core, w[..|w| - 1]);
    }
  }

  /** `strip()` removes exactly the whitespace framing a trimmed core. */
  lemma StripFramed(lead: string, core: string, trail: string)
    requires AllSpace(lead) && AllSpace(trail) && Trimmed(core)
    ensures Strip(lead + core + trail) == core
  {
    if core == [] {
      assert lead + core + trail == lead + trail;
      assert AllSpace(lead + trail);
      TrimLeftSpacePrefix(lead + trail, []);
      assert lead + trail + [] == lead + trail;
      assert TrimRight([]) == [];
    } else {
      assert lead + core + trail == lead + (core + trail);
      TrimLeftSpacePrefix(lead, core + trail);
      TrimRightSpaceSuffix(core, trail);
    }
  }

  /** `strip()` is idempotent. */
  lemma StripIdempotent(s: string)
    ensures Strip(Strip(s)) == Strip(s)
  {
    var t := Strip(s);
    assert t == [] + t + [];
    StripFramed([], t, []);
  }

  /** Index of the first occurrence of `c` in `s`. */
  function IndexOf(s: string, c: char): (i: nat)
    requires c in s
    ensures i < |s| && s[i] == c && c !in s[..i]
  {
    if s[0] == c then 0 else 1 + IndexOf(s[1..], c)
  }

  /** Python's `s.split(sep)` for a one-character separator: the pieces
      between separators, empty pieces included, and never an empty list. */
  function Split(s: string, sep: char): (parts: seq<string>)
    ensures |parts| >= 1
    ensures forall k :: 0 <= k < |parts| ==> sep !in parts[k]
    decreases |s|
  {
    if sep !in s then [s]
    else
      var i := IndexOf(s, sep);
      [s[..i]] + Split(s[i + 1..], sep)
  }

  /** `split` yields one piece more than there are separators. */
  lemma {:induction false} SplitCount(s: string, sep: char)
    ensures |Split(s, sep)| == multiset(s)[sep] + 1
    decreases |s|
  {
    if sep in s {
      var i := IndexOf(s, sep);
      assert s == s[..i] + [sep] + s[i + 1..];
      assert multiset(s[..i])[sep] == 0;
      SplitCount(s[i + 1..], sep);
    }
  }

  /** Python's `sep.join(parts)`. */
  function Join(parts: seq<string>, sep: char): string
    requires |parts| >= 1
  {
    if |parts| == 1 then parts[0] else parts[0] + [sep] + Join(parts[1..], sep)
  }

  /** Splitting loses nothing: joining the pieces rebuilds the text. */
  lemma {:induction false} JoinSplit(s: string, sep: char)
    ensures Join(Split(s, sep), sep) == s
    decreases |s|
  {
    if sep in s {
      var i := IndexOf(s, sep);
      var parts := Split(s, sep);
      var rest := Split(s[i + 1..], sep);
      assert parts == [s[..i]] + rest;
      assert |parts| > 1 && parts[0] == s[..i] && parts[1..] == rest;
      assert Join(parts, sep) == s[..i] + [sep] + Join(rest, sep);
      JoinSplit(s[i + 1..], sep);
      assert s == s[..i] + [sep] + s[i + 1..];
    } else {
      assert Split(s, sep) == [s];
    }
  }

  lemma {:induction false} IndexOfAfterPrefix(p: string, sep: char, rest: string)
    requires sep !in p
    ensures IndexOf(p + [sep] + rest, sep) == |p|
    decreases |p|
  {
    if p != [] {
      assert (p + [sep] + rest)[1..] == p[1..] + [sep] + rest;
      IndexOfAfterPrefix(p[1..], sep, rest);
    }
  }

  /** Splitting a join of separator-free pieces gives the pieces back. */
  lemma {:induction false} SplitJoin(parts: seq<string>, sep: char)
    requires |parts| >= 1
    requires forall k :: 0 <= k < |parts| ==> sep !in parts[k]
    ensures Split(Join(parts, sep), sep) == parts
    decreases |parts|
  {
    if |parts| > 1 {
      var rest := Join(parts[1..], sep);
      var s := parts[0] + [sep] + rest;
      assert s[|parts[0]|] == sep;
      IndexOfAfterPrefix(parts[0], sep, rest);
      assert s[..|parts[0]|] == parts[0];
      assert s[|parts[0]| + 1..] == rest;
      SplitJoin(parts[1..], sep);
      assert [parts[0]] + parts[1..] == parts;
    }
  }

  /** Python's `needle in haystack` for strings. */
  predicate Contains(haystack: string, needle: string)
    decreases |haystack|
  {
    |needle| <= |haystack| && (haystack[..|needle|] == needle || Contains(haystack[1..], needle))
  }

  function DigitChar(d: nat): (c: char)
    requires d < 10
    ensures '0' <= c <= '9' && c as int - '0' as int == d
  {
    ('0' as int + d) as char
  }

  /** Decimal digits of a natural number, most significant first. */
  function NatToString(n: nat): (s: string)
    ensures |s| >= 1
    ensures forall k :: 0 <= k < |s| ==> '0' <= s[k] <= '9'
    ensures s[0] == '0' ==> n == 0 && |s| == 1
  {
    if n < 10 then [DigitChar(n)] else NatToString(n / 10) + [DigitChar(n % 10)]
  }

  /** Python's `str()` of an `int`. */
  function IntToString(n: int): (s: string)
    ensures |s| >= 1
    ensures forall k :: 0 <= k < |s| ==> s[k] == '-' || '0' <= s[k] <= '9'
    ensures n >= 0 <==> s[0] != '-'
    ensures forall k :: 1 <= k < |s| ==> s[k] != '-'
    ensures s[0] == '0' ==> |s| == 1
    ensures s[0] == '-' ==> |s| >= 2 && s[1] != '0'
  {
    if n < 0 then "-" + NatToString(-n) else NatToString(n)
  }

  /** Value of a non-empty string of decimal digits. */
  function DigitsValue(s: string): nat
    requires forall k :: 0 <= k < |s| ==> '0' <= s[k] <= '9'
  {
    if s == [] then 0 else 10 * DigitsValue(s[..|s| - 1]) + (s[|s| - 1] as int - '0' as int)
  }

  /** Python's `int()` of a decimal string with an optional minus sign. */
  function ParseInt(s: string): Option<int>
  {
    if s == [] then None
    else if s[0] == '-' then
      var ds := s[1..];
      if ds != [] && forall k :: 0 <= k < |ds| ==> '0' <= ds[k] <= '9' then Some(0 - DigitsValue(ds)) else None
    else if forall k :: 0 <= k < |s| ==> '0' <= s[k] <= '9' then Some(DigitsValue(s))
    else None
  }

  lemma {:induction false} DigitsOfNat(n: nat)
    ensures DigitsValue(NatToString(n)) == n
    decreases n
  {
    var s := NatToString(n);
    if n >= 10 {
      var q, d := n / 10, n % 10;
      assert n == 10 * q + d;
      DigitsOfNat(q);
      assert s == NatToString(q) + [DigitChar(d)];
      assert s[..|s| - 1] == NatToString(q);
      assert s[|s| - 1] as int - '0' as int == d;
    }
  }

  /** `int()` reads back a sign and the digits of a magnitude. */
  lemma ParseSigned(n: int, ds: string)
    requires ds != [] && forall k :: 0 <= k < |ds| ==> '0' <= ds[k] <= '9'
    requires DigitsValue(ds) == (if n < 0 then -n else n)
    ensures ParseInt(if n < 0 then "-" + ds else ds) == Some(n)
  {
    if n < 0 {
      var s := "-" + ds;
      assert s[0] == '-' && s[1..] == ds;
    } else {
      assert ds[0] != '-';
    }
  }

  /** `str()` of an integer is read back by `int()`: the argument vector
      carries method ids and thread counts without loss. */
  lemma IntToStringRoundTrip(n: int)
    ensures ParseInt(IntToString(n)) == Some(n)
  {
    var m: nat := if n < 0 then -n else n;
    var ds := NatToString(m);
    DigitsOfNat(m);
    ParseSigned(n, ds);
    assert IntToString(n) == (if n < 0 then "-" + ds else ds);
  }
}

=== FILE: wrappers.dfy ===
/** Python's `None` results and raised exceptions become `Option` and
    `Result` values. */
module Wrappers {

  datatype Option<+T> = None | Some(value: T)

  datatype Result<+R, +E> = Success(value: R) | Failure(error: E)
}
